=== FILE: README.md ===
# Shelvy telemetry engine — a Dafny model

This project models the telemetry engine behind the Shelvy bread-freshness
dashboard. The engine has two sources and switches between them.

- **The simulated source** (`MockTelemetryService`). It keeps a fleet of three
  shelf casings. Each tick walks every reading by a bounded random step and
  clamps it. Then it rounds the readings, follows the active casing, and
  prepends history, alerts and logs. The lists have fixed caps of 60, 6 and 20.
- **The live provider** (`TelemetryProvider`). While a token is present it polls
  the backend. Each successful poll is merged into the dashboard view:
  - a trend against the previous reading, rounded to hundredths;
  - a history entry for a reading not seen before;
  - one live device;
  - a critical banner, kept down once dismissed;
  - a keyed log map, sorted newest first and capped at 40.

  A missing token switches the provider to the simulated source, and a new
  token switches it back. A poll whose processing throws also switches to
  the simulated source. A request that fails at the transport does not: the
  API client answers it with no reading and empty alert lists, so the poll
  only flags the empty-payload error and the provider stays live.

Every operation is a pure function. Readings, trends and batteries are
integers in thousandths of a degree, percent or battery percent. This makes
the roundings exact:

- the simulated `round(v, 1)` rounds half up to a multiple of 100;
- the simulated `round(v, 0)` rounds half up to a multiple of 1000;
- the live `toFixed(2)` rounds half away from zero to a multiple of 10.

Some inputs become parameters:

- The random draws of a tick are `Step` values, limited to the source's ranges.
- The clock is a `now` parameter.
- The outcome of a poll's three requests is a `PollOutcome` value.

The provider's refs and state form one `Engine` record. A poll is split in
two: `BeginPoll` runs the guards and captures the token. `CompletePoll`
receives the outcome together with the token that was captured.

Modules:

| module | file | what it holds |
|---|---|---|
| `Common` | `common.dfy` | options, clamp, the two roundings, a stable descending sort |
| `Model` | `model.dfy` | devices, alerts, logs, history, snapshots |
| `MockTelemetry` | `mock_service.dfy` | the simulated source |
| `MockProperties` | `mock_properties.dfy` | what a tick, a selection and the baseline guarantee |
| `LiveMerge` | `live_merge.dfy` | the alert mapping and the merge of one poll |
| `LiveProperties` | `live_properties.dfy` | the log map, history, banner and selection rules |
| `Provider` | `provider.dfy` | the mode, poll, token and command state machine |
| `ProviderProperties` | `provider_properties.dfy` | the failover rules and the invariant every event keeps |

## Behaviour of the code worth knowing

- **A failed poll.** A poll fails when something inside its processing
  throws, for example the alert mapper on a malformed history record. A
  request error does not count: the API client turns it into an empty
  payload (`ProviderProperties.UnreachableBackendFlagsError`). On a failure
  the provider first flags the view with status `error` and the failure
  message. Then it switches to the simulated source. The
  subscription publishes the simulated snapshot at once. So a poll that fails
  while live ends with status `mock` and no error
  (`ProviderProperties.PollFailureFailsOver`). The error flag survives only
  when the provider was already in mock mode. The reading that was being
  processed has already been remembered when the alert mapper throws, so a
  later poll that brings the same reading again does not count it as new
  (`ProviderProperties.FailedReadingIsNotNewAgain`).
- **Switching back to the simulated source** reuses the existing simulated
  source with its state. It does not rebuild the baseline
  (`ProviderProperties.FailoverResumesSimulation`).
- **A poll already started when the failover happens** is not cancelled.
  When it later succeeds, it publishes live data while the provider stays in
  mock mode, until the next simulated tick
  (`ProviderProperties.LatePollOverwritesMockView`,
  `ProviderProperties.RaceAfterMount`).
- **Banner ids.** A banner id is the capture time and the alert messages
  joined with `|`. Different messages give different ids when no message
  contains a bar (`LiveProperties.CandidateIdsTellMessagesApart`). A message
  with a bar in it can share its id with other messages, and dismissing one
  such banner then keeps the other down too
  (`LiveProperties.BarredMessageSharesCandidateId`).
- **Batteries.** The simulated battery drain per tick is below half a
  percent, and `round(battery, 0)` erases it. So a battery at a whole
  percentage of 16 or more never changes. The three baseline batteries (84,
  62, 47) therefore never move. No battery falls below 9 after a tick
  (`MockProperties.BatteryHeldFromSixteen`,
  `MockProperties.BatteryNeverBelowNine`,
  `MockProperties.TickHoldsHighBatteries`).

## Model

| member | source | states |
|---|---|---|
| Common.Clamp | src/services/mockTelemetryService.js:40-42 | the result lies in [lo, hi]; a value already inside is kept; one below gives lo and one above gives hi |
| Common.RoundHalfUp | src/services/mockTelemetryService.js:44-47 | the result is on the grid and within half a grid step of the input, with ties going up (`Math.round`) |
| Common.RoundHalfAway | src/hooks/TelemetryProvider.jsx:216-221 | `toFixed(2)`: on the hundredths grid and within half a step, with ties away from zero on both signs |
| Common.SortDesc | src/hooks/TelemetryProvider.jsx:334-336 | newest first: the result is a permutation of the input and is sorted descending by the key |
| Model.FindDevice | src/services/mockTelemetryService.js:251 | finds the first device with the id, and finds nothing exactly when no device has it |
| MockTelemetry.InitialActive | src/services/mockTelemetryService.js:78-79 | the first device flagged active: no earlier device is active, and with no active device at all the first device is chosen |
| MockTelemetry.Create | src/services/mockTelemetryService.js:68-126 | the baseline has three casings, casing-1 active, and one success alert; the reading counter equals the fleet size |
| MockTelemetry.Walk | src/services/mockTelemetryService.js:163-188 | a step keeps the device's id, name and location, flags it active exactly when its id is the active id, sets an active device online and leaves other statuses alone, stamps the tick's time, and lands temperature in [18, 32], humidity in [40, 80] and battery in [5, 100] |
| MockTelemetry.ActiveOrFirst | src/services/mockTelemetryService.js:190-191 | there is a chosen device exactly when the fleet is not empty |
| MockTelemetry.NextActive | src/services/mockTelemetryService.js:190-194 | the promoted device exists exactly when the fleet is not empty |
| MockTelemetry.WithActive | src/services/mockTelemetryService.js:196-198 | the promoted device replaces every entry with its id; every other entry is exactly as the walk left it; the fleet size is kept |
| MockTelemetry.ReadingEntries | src/services/mockTelemetryService.js:209-215 | one history entry per device |
| MockTelemetry.Tick | src/services/mockTelemetryService.js:158-243 | the fleet size is kept; every device that is not the new active one is exactly its walk step; there is an active id exactly when the fleet is not empty; history, alerts and logs stay within 60, 6 and 20; the reading counter grows by the fleet size and the other counters never go back; the snapshot carries the tick's time. `MockProperties.TickKeepsOneActive` and `MockProperties.TickPreservesValid` state the rest |
| MockTelemetry.Unshifted | src/services/mockTelemetryService.js:340-349 | one alert per breached condition |
| MockTelemetry.Conditions | src/services/mockTelemetryService.js:293-326 | at most two breaches, none exactly when neither metric is breached; the humidity breach comes first and the temperature breach last. `MockProperties.ConditionsFollowThresholds` gives the thresholds |
| MockTelemetry.BuildAlerts | src/services/mockTelemetryService.js:287-353 | at most six alerts, and at most two new alert numbers are used |
| MockTelemetry.BuildLogs | src/services/mockTelemetryService.js:355-381 | at most twenty log entries |
| MockTelemetry.SetActiveDevice | src/services/mockTelemetryService.js:245-285 | a selection emits exactly when the id is non-empty, known and not already active; without an emit the service is unchanged; with one the active id and the summary follow the id; ids, alerts, logs, history and counters are never touched |
| MockProperties.WalkStaysInRange | src/services/mockTelemetryService.js:163-188 | after a step: temperature in [18, 32] and humidity in [40, 80], both on the tenths grid; battery in [5, 100] on whole percent; the id is kept |
| MockProperties.TickKeepsReadingsInRange | src/services/mockTelemetryService.js:158-188 | every device after a tick has its readings in those ranges |
| MockProperties.WalkKeepsIds | src/services/mockTelemetryService.js:179-187 | the walk keeps every device's id in place |
| MockProperties.PromotionLeavesOneActive | src/services/mockTelemetryService.js:190-198 | after promotion exactly one device is active; it is the chosen one and it is online |
| MockProperties.TickKeepsOneActive | src/services/mockTelemetryService.js:161-198 | a tick keeps the fleet and its ids, and leaves exactly one active, online device matching the active id; a known active id is kept, an unknown one falls back to the first device |
| MockProperties.TickPrependsHistory | src/services/mockTelemetryService.js:209-217 | a tick puts one fresh reading per device ahead of the old history; the fresh readings are numbered from the counter, carry the device's new readings and the tick's time, and the total is capped at 60 |
| MockProperties.TickSummaryFollowsActive | src/services/mockTelemetryService.js:200-240 | the summary shows the active device's readings and its id; the trends are the exact differences from the previous summary and are multiples of a tenth; both timestamps are the tick's time |
| MockProperties.UnshiftedReverses | src/services/mockTelemetryService.js:340-349 | the unshifted alerts come in reverse order of the conditions, with increasing numbers |
| MockProperties.ConditionsFollowThresholds | src/services/mockTelemetryService.js:293-326 | each breach is reported exactly when its threshold is crossed (humidity above 75 or below 45, temperature above 31 or below 19); at most one per metric, humidity first |
| MockProperties.BuildAlertsPrepends | src/services/mockTelemetryService.js:287-353 | the new alerts, numbered down from the counter, come first; the previous alerts follow unchanged; the total is capped at six; without a device nothing is added |
| MockProperties.BreachesBecomeWarnings | src/services/mockTelemetryService.js:298-349 | each breach becomes a warning on the device, and the temperature breach ends up ahead of the humidity breach |
| MockProperties.StableAlertOnlyAfterNonSuccess | src/services/mockTelemetryService.js:328-338 | with no breach and small trends, one "Conditions stable" success alert is added exactly when the head alert is not a success |
| MockProperties.DriftWithoutBreachAddsNothing | src/services/mockTelemetryService.js:328-352 | with no breach and a large trend, the alerts are only truncated |
| MockProperties.TwoStableRoundsAddOneAlert | src/services/mockTelemetryService.js:328-338 | two stable rounds in a row add at most one alert; the second adds nothing |
| MockProperties.BaselineSuppressesFirstStableAlert | src/services/mockTelemetryService.js:81-90 | because the baseline alert is a success, the first stable round adds no alert |
| MockProperties.BuildLogsPrepends | src/services/mockTelemetryService.js:355-381 | with a device, a metric log and optionally an alert log come first, numbered from the counter; the previous logs follow; the total is capped at twenty |
| MockProperties.TickLogsAlertIffHeadChanged | src/services/mockTelemetryService.js:219-223 | a tick logs an alert exactly when the head alert id changed |
| MockProperties.BatteryHeldFromSixteen | src/services/mockTelemetryService.js:166-183 | a whole-percent battery of 16 or more is unchanged by a step |
| MockProperties.BatteryNeverBelowNine | src/services/mockTelemetryService.js:170-174 | after a step the battery is between 9 and 100 |
| MockProperties.TickHoldsHighBatteries | src/services/mockTelemetryService.js:163-188 | a tick leaves every whole-percent battery of 16 or more unchanged |
| MockProperties.SetActiveDeviceIgnores | src/services/mockTelemetryService.js:245-257 | a selection emits exactly when the id is non-empty, known and not already active; otherwise the service is unchanged |
| MockProperties.SetActiveDeviceSelectsOnly | src/services/mockTelemetryService.js:259-285 | a selection flags only the chosen device active and sets it online; other statuses and fields are kept; the summary shows its readings with zero trends; alerts, logs, history and counters are untouched |
| MockProperties.SetActiveDeviceIdempotent | src/services/mockTelemetryService.js:253-257 | selecting the same device twice changes nothing the second time and does not emit |
| MockProperties.CreateIsValid | src/services/mockTelemetryService.js:68-126 | the baseline meets the fleet invariant, and every battery is 16 or more |
| MockProperties.TickPreservesValid | src/services/mockTelemetryService.js:158-243 | a tick keeps the fleet invariant: distinct ids; one active, online device that the summary shows; readings in range; lists within their caps |
| MockProperties.SetActiveDevicePreservesValid | src/services/mockTelemetryService.js:245-285 | a selection keeps the fleet invariant |
| LiveMerge.ToLower | src/hooks/TelemetryProvider.jsx:62 | lower-casing keeps the length, leaves no upper-case letter and touches nothing else |
| LiveMerge.MapAlert | src/hooks/TelemetryProvider.jsx:60-80 | the id is the server id or the timestamp; the timestamp is the creation time or the capture time; the level defaults to critical and the severity is its lower case; the device is the live sensor; readings are copied; there is no value exactly when both readings are absent |
| LiveMerge.MapAlertHistory | src/hooks/TelemetryProvider.jsx:54-83 | no history gives no alerts; otherwise a permutation of the mapped alerts, sorted newest first |
| LiveProperties.MapAlertHistorySpec | src/hooks/TelemetryProvider.jsx:54-83 | every raw alert appears mapped, nothing else appears, and the result is sorted newest first |
| LiveProperties.MappedAlertIds | src/hooks/TelemetryProvider.jsx:65 | every mapped id comes from the server id or, failing that, the timestamp |
| LiveProperties.ToLowerIdempotent | src/hooks/TelemetryProvider.jsx:62 | lower-casing an already lower-cased severity changes nothing |
| LiveMerge.Trend | src/hooks/TelemetryProvider.jsx:216-221 | zero unless both readings are present; otherwise on the hundredths grid and within half a hundredth of the difference, a tie going up for a rise and down for a fall (away from zero) |
| LiveMerge.IsNew | src/hooks/TelemetryProvider.jsx:212-214 | a reading is new exactly when nothing is remembered or its capture time differs from the remembered one. `LiveProperties.RepeatedPollKeepsHistory` applies it to a repeated poll |
| LiveProperties.TrendAntisymmetric | src/hooks/TelemetryProvider.jsx:216-221 | swapping the two readings negates the trend |
| LiveProperties.TrendExactOnGrid | src/hooks/TelemetryProvider.jsx:216-221 | a difference already in hundredths is the trend exactly |
| LiveMerge.Without | src/hooks/TelemetryProvider.jsx:252 | filtering by id removes exactly the entries with that id |
| LiveProperties.WithoutAppend | src/hooks/TelemetryProvider.jsx:252 | filtering distributes over concatenation, so the kept entries keep their order and multiplicity |
| LiveProperties.WithoutSingle | src/hooks/TelemetryProvider.jsx:252 | a single entry is kept exactly when its id differs from the filtered id |
| LiveMerge.NextHistory | src/hooks/TelemetryProvider.jsx:242-254 | a repeated reading leaves the history alone; a new one is put first, ahead of older entries without its id, within the cap of 60 |
| LiveProperties.WithoutKeepsUnique | src/hooks/TelemetryProvider.jsx:252 | filtering keeps history ids distinct |
| LiveProperties.NextHistoryKeepsUnique | src/hooks/TelemetryProvider.jsx:242-254 | distinct history ids stay distinct |
| LiveMerge.CandidateBanner | src/hooks/TelemetryProvider.jsx:231-239 | a banner is proposed exactly when there are messages; its id is the capture time with all the messages joined by bars, and it shows the first message at the capture time |
| LiveProperties.JoinInjective | src/hooks/TelemetryProvider.jsx:233 | non-empty lists of messages without bars join to the same text only when they are the same list |
| LiveProperties.CandidateIdsTellMessagesApart | src/hooks/TelemetryProvider.jsx:231-239 | at one capture time, different bar-free messages ask for banners with different ids |
| LiveProperties.BarredMessageSharesCandidateId | src/hooks/TelemetryProvider.jsx:233 | the single message `a|b` asks for the same banner id as the two messages `a` and `b` |
| LiveMerge.ResolveBanner | src/hooks/TelemetryProvider.jsx:268-279 | no candidate clears the banner; a dismissed candidate takes its own banner down but leaves a different current banner shown; a candidate already shown keeps the current banner; any other candidate is shown |
| LiveProperties.DismissedCandidateStaysDown | src/hooks/TelemetryProvider.jsx:268-279 | if the current banner is not dismissed, the resolved banner is not dismissed either |
| LiveProperties.ResolveBannerIdempotent | src/hooks/TelemetryProvider.jsx:268-279 | resolving the same candidate twice is resolving it once |
| LiveMerge.TakeDown | src/hooks/TelemetryProvider.jsx:460-467 | a banner with the dismissed id is removed; any other banner stays |
| LiveProperties.DismissThenResolve | src/hooks/TelemetryProvider.jsx:460-467 | after a dismissal, no later candidate brings back a dismissed banner |
| LiveMerge.ReadingLogFor | src/hooks/TelemetryProvider.jsx:284-300 | the reading log is keyed by the capture time; it is critical when there are messages and info otherwise |
| LiveMerge.AlertLogFor | src/hooks/TelemetryProvider.jsx:302-315 | an alert's log keeps its id and time; it is critical only for a critical alert and a warning otherwise |
| LiveMerge.TrendLogFor | src/hooks/TelemetryProvider.jsx:317-332 | a history entry's log is keyed by its id and is info |
| LiveMerge.Upsert | src/hooks/TelemetryProvider.jsx:286 | the map grows by one exactly when the key was absent, and then the entry goes last; existing keys keep their places. `LiveProperties.UpsertSpec` states what each key reads |
| LiveMerge.UpsertAll | src/hooks/TelemetryProvider.jsx:302-315 | a series of sets adds at most one key per entry and keeps the existing keys in place. `LiveProperties.UpsertAllSpec` states what each key reads |
| LiveMerge.InsertAbsent | src/hooks/TelemetryProvider.jsx:317-332 | guarded sets only append: every stored entry is kept as it is, and at most one key is added per entry. `LiveProperties.InsertAbsentSpec` states what each key reads |
| LiveMerge.LogMap | src/hooks/TelemetryProvider.jsx:281-332 | the map holds at most one entry per current log, the reading log, each alert log and six trend logs. `LiveProperties.LogMapSpec` states what each key reads |
| LiveProperties.UpsertSpec | src/hooks/TelemetryProvider.jsx:286 | `Map.set` keeps keys distinct: the stored key reads the new entry and every other key is unchanged |
| LiveProperties.UpsertAllSpec | src/hooks/TelemetryProvider.jsx:302-315 | after a series of sets, each key reads the last entry set for it, or its old entry |
| LiveProperties.InsertAbsentSpec | src/hooks/TelemetryProvider.jsx:317-332 | a set guarded by `has` never replaces; an absent key reads the first entry offered for it |
| LiveProperties.LogMapSpec | src/hooks/TelemetryProvider.jsx:281-332 | key by key: an alert log beats the reading log, which beats the current log; a trend log fills only a key still empty |
| LiveMerge.MergeLogs | src/hooks/TelemetryProvider.jsx:334-336 | at most forty logs, newest first |
| LiveProperties.MergeLogsSpec | src/hooks/TelemetryProvider.jsx:281-337 | the result has distinct ids and is newest first; each entry is the map's entry for its key; an entry is dropped only when forty newer-or-equal ones are kept; below the cap everything is kept |
| LiveMerge.ApplyReadingUpdate | src/hooks/TelemetryProvider.jsx:194-359 | a reading makes the view live with no error and remembers the reading. The published parts are stated by `LiveProperties.ReadingPublishesOneDevice`, `ReadingHistoryRules`, `ReadingLogRules` and `MessagesRaiseBanner` |
| LiveProperties.EmptyPayloadOnlyFlagsError | src/hooks/TelemetryProvider.jsx:195-202 | an empty reading flags the error and keeps the data, the banner and the previous reading |
| LiveProperties.ReadingPublishesOneDevice | src/hooks/TelemetryProvider.jsx:339-357 | a reading publishes exactly one online, active device, the live sensor; the summary shows the reading, its trends and its capture time; the alerts are the mapped alert history; the reading is remembered |
| LiveProperties.ReadingHistoryRules | src/hooks/TelemetryProvider.jsx:242-254 | a repeated capture time keeps the history; a new one is put first and older entries with its id are dropped; distinct ids stay distinct |
| LiveProperties.RepeatedPollKeepsHistory | src/hooks/TelemetryProvider.jsx:212-254 | the merged reading is remembered, so polling the same payloads again is not a new reading and leaves the history as it is |
| LiveProperties.StoredIsKeptOrCrowdedOut | src/hooks/TelemetryProvider.jsx:334-336 | an entry of the log map is published, or forty published logs are at least as new as it |
| LiveProperties.MergedReadingLog | src/hooks/TelemetryProvider.jsx:284-300 | when no alert has its id, the reading log is published exactly as built or crowded out by forty logs at least as new, and no other log carries its id |
| LiveProperties.MergedAlertLogs | src/hooks/TelemetryProvider.jsx:302-315 | every merged log keyed by an alert id is that alert's log |
| LiveProperties.AlertLogsKept | src/hooks/TelemetryProvider.jsx:302-336 | for every alert, the log of an alert with its id is published or crowded out by forty logs at least as new |
| LiveProperties.MergedLogsRules | src/hooks/TelemetryProvider.jsx:281-337 | the merged logs have distinct ids, are newest first and capped at forty; the reading log and the alert logs are each published or crowded out, as above |
| LiveProperties.ReadingLogRules | src/hooks/TelemetryProvider.jsx:281-337 | after a reading the logs have distinct ids, are newest first and are capped at forty; a new reading's log is published exactly as built or crowded out by forty logs at least as new; every log keyed like an alert is that alert's log, and every alert has its log published or crowded out |
| LiveProperties.ReadingKeepsBannerUndismissed | src/hooks/TelemetryProvider.jsx:268-279 | a merge never shows a dismissed banner |
| LiveProperties.MessagesRaiseBanner | src/hooks/TelemetryProvider.jsx:229-279 | no messages clears the banner; an undismissed candidate is shown; a new candidate replaces the banner with the first message |
| LiveMerge.SelectLiveDevice | src/hooks/TelemetryProvider.jsx:436-457 | an unknown or already active id changes nothing; otherwise the active id follows the id; ids, banner, status, alerts, logs and history are kept. `LiveProperties.SelectLiveDeviceRules` states the flags and the summary |
| LiveProperties.SelectLiveDeviceRules | src/hooks/TelemetryProvider.jsx:436-457 | an unknown or already active id changes nothing; otherwise only the chosen device is flagged active, and the active id and the summary's device follow it |
| LiveProperties.SelectLiveDeviceIdempotent | src/hooks/TelemetryProvider.jsx:441-443 | selecting twice is selecting once |
| LiveProperties.SelectAfterReadingIsNoop | src/hooks/TelemetryProvider.jsx:256-266 | after a reading the only device is already active, so a selection changes nothing |
| Provider.TokenOf | src/hooks/TelemetryProvider.jsx:168 | the empty token counts as no token; any other token is kept as given |
| Provider.ActivateMock | src/hooks/TelemetryProvider.jsx:134-165 | in mock mode nothing changes; otherwise mock mode starts with the existing or a baseline simulated source, and the view shows its snapshot; token, previous reading and dismissed ids are untouched |
| Provider.DeactivateMock | src/hooks/TelemetryProvider.jsx:114-132 | outside mock mode nothing changes; otherwise the provider goes live with the initial view and keeps the simulated source |
| Provider.BeginPoll | src/hooks/TelemetryProvider.jsx:361-373 | a poll starts exactly when live with a token, and captures that token; only an idle view turns to loading; nothing else changes |
| Provider.CompletePoll | src/hooks/TelemetryProvider.jsx:375-397 | a result for a token no longer current is dropped; a failure for the current token ends in mock mode; token and dismissed ids are never touched. `ProviderProperties.PollFailureFailsOver` states what a failure remembers |
| ProviderProperties.UnreachableBackendFlagsError | src/services/apiClient.js:48-62 | a poll whose requests all failed at the transport only flags the empty-payload error: mode, simulated source and previous reading are kept |
| Provider.RunTokenEffects | src/hooks/TelemetryProvider.jsx:167-179 | a token run forgets the previous reading and the dismissed ids; no token means mock mode; a token means live mode with the initial view loading and a poll for that token |
| Provider.Mount | src/hooks/TelemetryProvider.jsx:404-421 | mounting records the token and runs both token effects |
| Provider.ChangeToken | src/hooks/TelemetryProvider.jsx:167-179 | the effects run only when the token changed; the engine then holds the new token |
| Provider.MockTick | src/hooks/TelemetryProvider.jsx:469-475 | a simulated tick republishes only in mock mode; outside it the view is unchanged |
| Provider.MockTimerFires | src/services/mockTelemetryService.js:128-143 | the simulated timer has no effect outside mock mode, where it is stopped |
| Provider.Refresh | src/hooks/TelemetryProvider.jsx:469-487 | in mock mode a refresh is one simulated tick; live without a token it does nothing; live with a token the view turns to loading and a poll for the token starts |
| Provider.SetActiveDevice | src/hooks/TelemetryProvider.jsx:423-458 | an empty id does nothing; mode, token, previous reading and dismissed ids are kept; live, a non-empty id is applied to the view by the live selection and nothing else changes |
| Provider.DismissBanner | src/hooks/TelemetryProvider.jsx:460-467 | a missing id does nothing; otherwise the id is dismissed and a banner with it comes down |
| Provider.Handle | src/hooks/TelemetryProvider.jsx:361-487 | only a token-change event touches the token, which then becomes the new token; every other event keeps every dismissed id. `ProviderProperties.HandleKeepsValid` states the invariant |
| Provider.Run | src/hooks/TelemetryProvider.jsx:361-487 | a run without a token change keeps the token and every dismissed id; a run ending in a token change holds that token. `ProviderProperties.RunKeepsValid` states the invariant |
| ProviderProperties.ActivateMockIdempotent | src/hooks/TelemetryProvider.jsx:135-137 | switching to the simulated source twice is switching once |
| ProviderProperties.FailoverResumesSimulation | src/hooks/TelemetryProvider.jsx:141-145 | leaving mock mode and coming back resumes the same simulated source and shows its snapshot |
| ProviderProperties.PollFailureFailsOver | src/hooks/TelemetryProvider.jsx:375-397 | a failed poll for the current token ends in mock mode; from live mode the view is the simulated snapshot; already in mock mode the error flag with the message or the fallback stays; the reading being processed stays remembered (written at lines 223-227, before the alert mapper can throw), just as a successful poll would remember it |
| ProviderProperties.FailedReadingIsNotNewAgain | src/hooks/TelemetryProvider.jsx:212-230 | after a failed poll, a late poll bringing the same reading finds it not new and leaves the history and the memory as they were |
| ProviderProperties.PollSuccessMerges | src/hooks/TelemetryProvider.jsx:381-385 | a successful poll for the current token merges its payloads and changes nothing else |
| ProviderProperties.LatePollOverwritesMockView | src/hooks/TelemetryProvider.jsx:375-385 | a success arriving in mock mode for the same token publishes live data while staying in mock mode |
| ProviderProperties.RaceAfterMount | src/hooks/TelemetryProvider.jsx:361-397 | from a mount with a token: a failed poll and then a late success leave a live view in mock mode, and the next simulated tick republishes the simulated view |
| ProviderProperties.TokenChangeResets | src/hooks/TelemetryProvider.jsx:167-179 | a changed token forgets the previous reading and the dismissed ids; with no token it serves the simulated source; with a token it goes live and loading, polls, and keeps the simulated source for later |
| ProviderProperties.LiveSelectionIsNoop | src/hooks/TelemetryProvider.jsx:436-443 | in a valid live engine a selection changes nothing |
| ProviderProperties.MockSelectionDelegates | src/hooks/TelemetryProvider.jsx:428-434 | in mock mode a selection goes to the simulated source, and the view changes only when it emitted |
| ProviderProperties.ActivateMockKeepsValid | src/hooks/TelemetryProvider.jsx:134-165 | switching to the simulated source establishes the engine invariant |
| ProviderProperties.MountIsValid | src/hooks/TelemetryProvider.jsx:167-179 | every mount starts in a valid engine state |
| ProviderProperties.CompletePollKeepsValid | src/hooks/TelemetryProvider.jsx:375-397 | completing a poll keeps the engine invariant |
| ProviderProperties.MockTickKeepsValid | src/hooks/TelemetryProvider.jsx:469-475 | a simulated tick keeps the engine invariant |
| ProviderProperties.ChangeTokenKeepsValid | src/hooks/TelemetryProvider.jsx:167-179 | a token change keeps the engine invariant |
| ProviderProperties.BeginPollKeepsValid | src/hooks/TelemetryProvider.jsx:361-373 | starting a poll keeps the engine invariant |
| ProviderProperties.SelectionKeepsValid | src/hooks/TelemetryProvider.jsx:423-458 | a device selection keeps the engine invariant |
| ProviderProperties.DismissBannerKeepsValid | src/hooks/TelemetryProvider.jsx:460-467 | dismissing a banner keeps the engine invariant |
| ProviderProperties.HandleKeepsValid | src/hooks/TelemetryProvider.jsx:423-487 | every event keeps the engine invariant: no dismissed banner is shown; no token implies mock mode; mock mode has a valid simulated source; a live view shows at most the live sensor, active |
| ProviderProperties.RunKeepsValid | src/hooks/TelemetryProvider.jsx:423-487 | any run of events keeps the engine invariant |
| ProviderProperties.HandleKeepsDismissed | src/hooks/TelemetryProvider.jsx:460-467 | only a token change forgets dismissed ids |
| ProviderProperties.DismissedBannerStaysDown | src/hooks/TelemetryProvider.jsx:272-273 | over any run without a token change, a dismissed id stays dismissed and its banner never shows again |

## Left out

- Timers and scheduling. The poll interval, the simulated interval and React's
  batching are not modelled. A poll or a tick is an event that the caller
  applies. A change of `pollInterval` alone re-runs the polling effect
  (TelemetryProvider.jsx:404-421); that effect is not modelled. Live, it only
  restarts the poll timer and polls once. In mock mode with a token (after a
  failover), its `deactivateMock` leaves mock mode and resets the view to the
  initial state before polling, which the model does not show.
- Subscriptions are modelled only through their effect: a subscriber is
  called at once and on every emit, and only while in mock mode. Unmount
  cleanup has no observable result and is not modelled.
- The transport. `fetch` and `baseUrl` are not modelled. A poll's outcome is
  a parameter: payloads, or a failure carrying the reading being processed
  and an optional message. The API
  client catches every request error and answers it with a `null` reading
  and empty alert lists, so a network or HTTP failure arrives as `Fetched`
  payloads with no reading, never as `Failed`. `Failed` stands only for an
  exception thrown while the poll's payloads are processed.
- Dates. Timestamps are integers and `ensureIsoString` is the identity. A
  missing capture time falls back to the clock parameter. An unparsable date
  string is not modelled.
- Floating point. Readings are exact thousandths, so binary rounding effects
  of the JavaScript numbers are not reproduced. `Number.isFinite` is modelled
  as presence.
- Display text. Alert and log titles, messages and value strings are reduced
  to tags (which condition, which category); their wording is not modelled.
- LiveMerge.ToLower: only ASCII letters are lowered; full Unicode case
  mapping is not modelled.
- LiveMerge.MapAlert: a `null` temperature or humidity is treated like an
  absent one when building the value; the source renders `null°C` in that
  case.
- Ids are a datatype, not rendered strings. Textual collisions between
  renderings are not modelled, such as a server alert id equal to an ISO
  timestamp.
- The context value. The `forceMock` and `forceLive` helpers and the
  `useTelemetry` hook only expose the operations above, and are not modelled.
- Provider.ChangeToken: an absent token and an empty token are the same
  value, so a change between two falsy tokens does not rerun the effects.
- Concurrency is reduced to the order of completions. A completion names the
  token its poll captured, and any interleaving of events can be expressed
  as a run.

=== FILE: common.dfy ===
/**
 * Small building blocks shared by the simulated source and the live merge
 * engine: an optional value, bounded prefixes, clamping,
 * the two decimal roundings the telemetry code uses, and a stable
 * newest-first sort with its correctness lemmas.
 */
module Common {

  /** JavaScript's `null`/`undefined` next to a present value. */
  datatype Option<+T> = None | Some(value: T) {
    function GetOr(default: T): T {
      if Some? then value else default
    }
  }

  /** The first `n` elements, or all of them when there are fewer. */
  function Take<T>(xs: seq<T>, n: nat): (r: seq<T>)
    ensures |r| == if |xs| < n then |xs| else n
    ensures forall i :: 0 <= i < |r| ==> r[i] == xs[i]
  {
    if |xs| <= n then xs else xs[..n]
  }

  function Min(a: int, b: int): int { if a <= b then a else b }

  function Max(a: int, b: int): int { if a >= b then a else b }

  function Abs(a: int): (r: nat)
    ensures r == a || r == -a
  {
    if a < 0 then -a else a
  }

  /** The value pulled into [lo, hi]: raised to lo, then lowered to hi. */
  function Clamp(value: int, lo: int, hi: int): (r: int)
    ensures lo <= hi ==> lo <= r <= hi
    ensures lo <= value <= hi ==> r == value
    ensures value < lo ==> r == Min(lo, hi)
    ensures value > hi ==> r == hi
  {
    Min(Max(value, lo), hi)
  }

  /** The decimal grids the source rounds to, in thousandths: 0.01, 0.1 and 1. */
  type Grid = u: int | u == 10 || u == 100 || u == 1000 witness 10

  /**
   * `Math.round` applied at granularity `unit` (ties go up, towards
   * +infinity): the unique multiple of `unit` in (v - unit/2, v + unit/2].
   */
  function RoundHalfUp(v: int, unit: Grid): (r: int)
    ensures r % unit == 0
    ensures v - unit / 2 < r <= v + unit / 2
  {
    if unit == 10 then SnapTen(v + 5); (v + 5) / 10 * 10
    else if unit == 100 then SnapHundred(v + 50); (v + 50) / 100 * 100
    else SnapThousand(v + 500); (v + 500) / 1000 * 1000
  }

  /** Truncating to a multiple of ten loses less than ten. */
  lemma SnapTen(n: int)
    ensures (n / 10 * 10) % 10 == 0 && n - 10 < n / 10 * 10 <= n
  {
  }

  lemma SnapHundred(n: int)
    ensures (n / 100 * 100) % 100 == 0 && n - 100 < n / 100 * 100 <= n
  {
  }

  lemma SnapThousand(n: int)
    ensures (n / 1000 * 1000) % 1000 == 0 && n - 1000 < n / 1000 * 1000 <= n
  {
  }

  /**
   * Decimal fixing at granularity `unit`: the magnitude is rounded
   * half up and the sign put back, so ties go away from zero.
   */
  function RoundHalfAway(v: int, unit: Grid): (r: int)
    ensures r % unit == 0
    ensures v >= 0 ==> v - unit / 2 < r <= v + unit / 2
    ensures v < 0 ==> v - unit / 2 <= r < v + unit / 2
  {
    if v >= 0 then RoundHalfUp(v, unit) else -RoundHalfUp(-v, unit)
  }

  /** Two multiples of `unit` closer than `unit` are equal. */
  lemma GridGap(a: int, b: int, unit: Grid)
    requires a % unit == 0 && b % unit == 0
    requires b - unit < a < b + unit
    ensures a == b
  {
  }

  /** A multiple of `unit` is its own rounding: rounding is idempotent on the grid. */
  lemma RoundHalfUpOnGrid(v: int, unit: Grid)
    requires v % unit == 0
    ensures RoundHalfUp(v, unit) == v
  {
    GridGap(RoundHalfUp(v, unit), v, unit);
  }

  /** Rounding to a grid is monotone. */
  lemma RoundHalfUpMonotone(v: int, w: int, unit: Grid)
    requires v <= w
    ensures RoundHalfUp(v, unit) <= RoundHalfUp(w, unit)
  {
    var h := unit / 2;
    var qv, qw := (v + h) / unit, (w + h) / unit;
    if unit == 10 {
      assert qv * 10 <= v + h <= w + h < qw * 10 + 10;
    } else if unit == 100 {
      assert qv * 100 <= v + h <= w + h < qw * 100 + 100;
    } else {
      assert qv * 1000 <= v + h <= w + h < qw * 1000 + 1000;
    }
    assert qv <= qw;
  }

  /** Rounding a clamped value to a grid the bounds lie on stays within the bounds. */
  lemma RoundClampedStaysInRange(v: int, lo: int, hi: int, unit: Grid)
    requires lo <= hi && lo % unit == 0 && hi % unit == 0
    ensures lo <= RoundHalfUp(Clamp(v, lo, hi), unit) <= hi
  {
    var c := Clamp(v, lo, hi);
    RoundHalfUpMonotone(lo, c, unit);
    RoundHalfUpMonotone(c, hi, unit);
    RoundHalfUpOnGrid(lo, unit);
    RoundHalfUpOnGrid(hi, unit);
  }

  // ---------------------------------------------------------------------
  // Newest-first stable sort by a numeric key.
  // ---------------------------------------------------------------------

  ghost predicate SortedDesc<T>(s: seq<T>, key: T -> int) {
    forall i, j :: 0 <= i < j < |s| ==> key(s[i]) >= key(s[j])
  }

  /**
   * Places `x` in front of the first element whose key is not larger, so an
   * element that came earlier stays ahead of later ones with an equal key.
   */
  function InsertDesc<T>(x: T, s: seq<T>, key: T -> int): (r: seq<T>)
    ensures multiset(r) == multiset(s) + multiset{x}
    ensures |r| == |s| + 1
  {
    if |s| == 0 || key(x) >= key(s[0]) then [x] + s
    else
      assert s == [s[0]] + s[1..];
      [s[0]] + InsertDesc(x, s[1..], key)
  }

  /** Inserting into a newest-first sequence keeps it newest first. */
  lemma {:induction false} InsertDescSorted<T>(x: T, s: seq<T>, key: T -> int)
    requires SortedDesc(s, key)
    ensures SortedDesc(InsertDesc(x, s, key), key)
  {
    if |s| > 0 && key(x) < key(s[0]) {
      var rest := InsertDesc(x, s[1..], key);
      InsertDescSorted(x, s[1..], key);
      forall k | 0 <= k < |rest| ensures key(rest[k]) <= key(s[0]) {
        assert rest[k] in multiset(rest);
        if rest[k] != x {
          assert rest[k] in multiset(s[1..]);
        }
      }
    }
  }

  /** Stable insertion sort by descending key: a sorted permutation of `s`. */
  function SortDesc<T>(s: seq<T>, key: T -> int): (r: seq<T>)
    ensures multiset(r) == multiset(s)
    ensures |r| == |s|
    ensures SortedDesc(r, key)
  {
    if |s| == 0 then []
    else
      assert s == [s[0]] + s[1..];
      InsertDescSorted(s[0], SortDesc(s[1..], key), key);
      InsertDesc(s[0], SortDesc(s[1..], key), key)
  }

  // ---------------------------------------------------------------------
  // Identity keys of records in a sequence.
  // ---------------------------------------------------------------------

  /** No two positions of `s` carry the same identity. */
  ghost predicate UniqueBy<T, K>(s: seq<T>, id: T -> K) {
    forall i, j :: 0 <= i < j < |s| ==> id(s[i]) != id(s[j])
  }

  /** The identities present in `s`. */
  ghost function KeysOf<T, K>(s: seq<T>, id: T -> K): set<K> {
    set i | 0 <= i < |s| :: id(s[i])
  }

  lemma {:induction false} InsertDescKeepsUnique<T, K>(x: T, s: seq<T>, key: T -> int, id: T -> K)
    requires UniqueBy(s, id) && id(x) !in KeysOf(s, id)
    ensures UniqueBy(InsertDesc(x, s, key), id)
    ensures KeysOf(InsertDesc(x, s, key), id) == KeysOf(s, id) + {id(x)}
  {
    var r := InsertDesc(x, s, key);
    if |s| == 0 || key(x) >= key(s[0]) {
      assert r == [x] + s;
      assert forall j :: 0 < j < |r| ==> r[j] == s[j - 1];
      forall i, j | 0 <= i < j < |r|
        ensures id(r[i]) != id(r[j])
      {
        if i == 0 {
          assert id(s[j - 1]) in KeysOf(s, id);
        }
      }
      assert KeysOf(r, id) == KeysOf(s, id) + {id(x)} by {
        forall k | k in KeysOf(r, id) ensures k in KeysOf(s, id) + {id(x)} {
          var i :| 0 <= i < |r| && id(r[i]) == k;
          if i > 0 { assert id(s[i - 1]) in KeysOf(s, id); }
        }
        forall k | k in KeysOf(s, id) ensures k in KeysOf(r, id) {
          var i :| 0 <= i < |s| && id(s[i]) == k;
          assert r[i + 1] == s[i];
        }
        assert id(r[0]) in KeysOf(r, id);
      }
    } else {
      var t := s[1..];
      assert UniqueBy(t, id);
      assert KeysOf(t, id) <= KeysOf(s, id) by {
        forall k | k in KeysOf(t, id) ensures k in KeysOf(s, id) {
          var i :| 0 <= i < |t| && id(t[i]) == k;
          assert s[i + 1] == t[i];
        }
      }
      InsertDescKeepsUnique(x, t, key, id);
      var rest := InsertDesc(x, t, key);
      assert r == [s[0]] + rest;
      assert id(s[0]) !in KeysOf(t, id) by {
        forall i | 0 <= i < |t| ensures id(t[i]) != id(s[0]) {
          assert s[i + 1] == t[i];
        }
      }
      assert id(s[0]) != id(x) by {
        assert id(s[0]) in KeysOf(s, id);
      }
      forall i, j | 0 <= i < j < |r|
        ensures id(r[i]) != id(r[j])
      {
        if i == 0 {
          assert r[j] == rest[j - 1];
          assert id(rest[j - 1]) in KeysOf(rest, id);
        } else {
          assert r[i] == rest[i - 1] && r[j] == rest[j - 1];
        }
      }
      assert KeysOf(s, id) == KeysOf(t, id) + {id(s[0])} by {
        forall k | k in KeysOf(s, id) ensures k in KeysOf(t, id) + {id(s[0])} {
          var i :| 0 <= i < |s| && id(s[i]) == k;
          if i > 0 { assert t[i - 1] == s[i]; }
        }
      }
      assert KeysOf(r, id) == KeysOf(rest, id) + {id(s[0])} by {
        forall k | k in KeysOf(r, id) ensures k in KeysOf(rest, id) + {id(s[0])} {
          var i :| 0 <= i < |r| && id(r[i]) == k;
          if i > 0 { assert rest[i - 1] == r[i]; }
        }
        forall k | k in KeysOf(rest, id) ensures k in KeysOf(r, id) {
          var i :| 0 <= i < |rest| && id(rest[i]) == k;
          assert r[i + 1] == rest[i];
        }
        assert id(r[0]) in KeysOf(r, id);
      }
    }
  }

  /** Sorting never merges or splits identities: a duplicate-free list stays duplicate-free. */
  lemma {:induction false} SortDescKeepsUnique<T, K>(s: seq<T>, key: T -> int, id: T -> K)
    requires UniqueBy(s, id)
    ensures UniqueBy(SortDesc(s, key), id)
    ensures KeysOf(SortDesc(s, key), id) == KeysOf(s, id)
  {
    if |s| > 0 {
      var t := s[1..];
      assert UniqueBy(t, id);
      SortDescKeepsUnique(t, key, id);
      assert id(s[0]) !in KeysOf(t, id) by {
        forall i | 0 <= i < |t| ensures id(t[i]) != id(s[0]) {
          assert s[i + 1] == t[i];
        }
      }
      InsertDescKeepsUnique(s[0], SortDesc(t, key), key, id);
      assert KeysOf(s, id) == KeysOf(t, id) + {id(s[0])} by {
        forall k | k in KeysOf(s, id) ensures k in KeysOf(t, id) + {id(s[0])} {
          var i :| 0 <= i < |s| && id(s[i]) == k;
          if i > 0 { assert t[i - 1] == s[i]; }
        }
        forall k | k in KeysOf(t, id) ensures k in KeysOf(s, id) {
          var i :| 0 <= i < |t| && id(t[i]) == k;
          assert s[i + 1] == t[i];
        }
        assert id(s[0]) in KeysOf(s, id);
      }
    }
  }

  /** A prefix keeps order and identities apart. */
  lemma TakeKeepsSortedAndUnique<T, K>(s: seq<T>, n: nat, key: T -> int, id: T -> K)
    ensures SortedDesc(s, key) ==> SortedDesc(Take(s, n), key)
    ensures UniqueBy(s, id) ==> UniqueBy(Take(s, n), id)
    ensures KeysOf(Take(s, n), id) <= KeysOf(s, id)
  {
    var r := Take(s, n);
    forall k | k in KeysOf(r, id) ensures k in KeysOf(s, id) {
      var i :| 0 <= i < |r| && id(r[i]) == k;
      assert r[i] == s[i];
    }
  }
}

=== FILE: live_merge.dfy ===
/**
 * The live merge engine of `src/hooks/TelemetryProvider.jsx`: the alert
 * history mapper, the trend and new-reading rules, the deduplicated
 * history, the log map keyed by id, the banner resolution against the
 * dismissed ids, and `applyReadingUpdate` that puts them together into the
 * next published view.  The live feed reports one sensor, published as a
 * single device.
 */
module LiveMerge {
  import opened Common
  import opened Model

  const HISTORY_LIMIT := 60
  const LOG_LIMIT := 40
  /** Only the newest six history entries are offered to the log as trend entries. */
  const TREND_WINDOW := 6

  const BASE_DEVICE_ID := "shelvy-sensor"
  const BASE_DEVICE_NAME := "Shelvy Shelf Sensor"
  const BASE_DEVICE_LOCATION := "Bakery Floor"

  const EMPTY_PAYLOAD := "Telemetry reading payload was empty."
  const UNREACHABLE := "Unable to reach telemetry service."
  const THRESHOLD_TYPE := "sensor_threshold"
  const SENSOR_ALERT := "Sensor alert"

  /** Two decimals: one hundredth, in thousandths. */
  const HUNDREDTHS: Grid := 10

  /** The `status` field of the published state: "idle", "loading", "online", "error", "mock". */
  datatype Status = Idle | Loading | Live | Errored | MockFeed

  /** A banner id is `<capturedAt>:<messages joined by "|">`; the model keeps both parts. */
  datatype BannerId = BannerId(capturedAt: Timestamp, messages: string)

  /** The critical freshness banner; its severity and title are fixed and not modelled. */
  datatype Banner = Banner(id: BannerId, message: string, timestamp: Timestamp)

  /** What the provider publishes: the snapshot plus banner, status and error. */
  datatype View = View(data: Snapshot, banner: Option<Banner>, status: Status, error: Option<string>)

  /** `/readings/current`; a non-finite reading is `None`, a falsy `capturedAt` is `None`. */
  datatype ReadingPayload = ReadingPayload(
    temperature: Option<Milli>,
    humidity: Option<Milli>,
    capturedAt: Option<Timestamp>)

  /** One record of the alert history as the server sends it; absent fields are `None`. */
  datatype RawAlert = RawAlert(
    id: Option<string>,
    level: Option<string>,
    kind: Option<string>,
    message: Option<string>,
    temperature: Option<Milli>,
    humidity: Option<Milli>,
    createdAt: Option<Timestamp>)

  /**
   * The three responses of one poll.  `messages` and `history` are `None`
   * when the payload has no `alerts` array.
   */
  datatype Payloads = Payloads(
    reading: Option<ReadingPayload>,
    messages: Option<seq<string>>,
    history: Option<seq<RawAlert>>)

  /** The previous-reading memory. */
  datatype PreviousReading = PreviousReading(
    temperature: Option<Milli>,
    humidity: Option<Milli>,
    capturedAt: Timestamp)

  /** The provider's `createInitialState`: nothing known yet, status idle. */
  function InitialView(): (v: View)
    ensures v.data.devices == [] && v.data.alerts == [] && v.data.logs == [] && v.data.history == []
    ensures v.banner.None? && v.status == Idle && v.error.None?
  {
    View(Snapshot(Summary(None, None, 0, 0, None, None), [], [], [], [], None, None), None, Idle, None)
  }

  // ---------------------------------------------------------------------
  // mapAlertHistory
  // ---------------------------------------------------------------------

  function LowerChar(c: char): char {
    if 'A' <= c <= 'Z' then (c as int + 32) as char else c
  }

  /** `toLowerCase` on ASCII letters. */
  function ToLower(s: string): (r: string)
    ensures |r| == |s|
    ensures forall i :: 0 <= i < |s| ==> !('A' <= r[i] <= 'Z')
    ensures forall i :: 0 <= i < |s| && !('A' <= s[i] <= 'Z') ==> r[i] == s[i]
  {
    seq(|s|, i requires 0 <= i < |s| => LowerChar(s[i]))
  }

  /**
   * One server alert as the dashboard shows it: its id is the server's id
   * when present (even an empty one: the source uses `??`), else its
   * timestamp; the timestamp is `createdAt`, else the reading's time; the
   * level defaults to critical and the severity is its lower-case form.
   */
  function MapAlert(a: RawAlert, capturedAt: Timestamp): (r: Alert)
    ensures r.id == (if a.id.Some? then ServerAlert(a.id.value) else AlertAt(r.timestamp))
    ensures r.timestamp == (if a.createdAt.Some? then a.createdAt.value else capturedAt)
    ensures r.severity == ToLower(OrElse(a.level, CRITICAL)) && r.level == Some(OrElse(a.level, CRITICAL))
    ensures r.deviceId == BASE_DEVICE_ID
    ensures r.temperature == a.temperature && r.humidity == a.humidity
    ensures r.value.NoValue? <==> a.temperature.None? && a.humidity.None?
  {
    var timestamp := a.createdAt.GetOr(capturedAt);
    var level := OrElse(a.level, CRITICAL);
    var title :=
      if a.kind == Some(THRESHOLD_TYPE) then SensorThreshold
      else if a.kind.Some? && a.kind.value != "" then ServerType(a.kind.value)
      else GenericAlert;
    Alert(if a.id.Some? then ServerAlert(a.id.value) else AlertAt(timestamp),
          BASE_DEVICE_ID, title, ToLower(level), Some(level), Some(OrElse(a.message, SENSOR_ALERT)), timestamp,
          if a.temperature.None? && a.humidity.None? then NoValue else Readout(a.temperature, a.humidity),
          a.temperature, a.humidity)
  }

  function MapAll(alerts: seq<RawAlert>, capturedAt: Timestamp): (r: seq<Alert>)
    ensures |r| == |alerts|
    ensures forall i :: 0 <= i < |alerts| ==> r[i] == MapAlert(alerts[i], capturedAt)
  {
    seq(|alerts|, i requires 0 <= i < |alerts| => MapAlert(alerts[i], capturedAt))
  }

  /**
   * `mapAlertHistory`: nothing when the payload has no alert array,
   * otherwise every alert mapped and sorted newest first (ties keep the
   * server's order).
   */
  function MapAlertHistory(history: Option<seq<RawAlert>>, capturedAt: Timestamp): (r: seq<Alert>)
    ensures history.None? ==> r == []
    ensures history.Some? ==> multiset(r) == multiset(MapAll(history.value, capturedAt))
    ensures SortedDesc(r, AlertTime)
  {
    if history.None? then [] else SortDesc(MapAll(history.value, capturedAt), AlertTime)
  }

  // ---------------------------------------------------------------------
  // Trend, new reading, history
  // ---------------------------------------------------------------------

  /**
   * The change since the previous reading when both values are finite,
   * else 0: the difference rounded to hundredths, ties away from zero.
   */
  function Trend(current: Option<Milli>, previous: Option<Milli>): (r: Milli)
    ensures current.None? || previous.None? ==> r == 0
    ensures r % HUNDREDTHS == 0
    ensures current.Some? && previous.Some? ==>
      Abs(r - (current.value - previous.value)) <= HUNDREDTHS / 2
    ensures (current.Some? && previous.Some? && current.value >= previous.value) ==>
      var d := current.value - previous.value; d - HUNDREDTHS / 2 < r <= d + HUNDREDTHS / 2
    ensures (current.Some? && previous.Some? && current.value < previous.value) ==>
      var d := current.value - previous.value; d - HUNDREDTHS / 2 <= r < d + HUNDREDTHS / 2
  {
    if current.Some? && previous.Some? then RoundHalfAway(current.value - previous.value, HUNDREDTHS) else 0
  }

  function PreviousTemperature(previous: Option<PreviousReading>): Option<Milli> {
    if previous.Some? then previous.value.temperature else None
  }

  function PreviousHumidity(previous: Option<PreviousReading>): Option<Milli> {
    if previous.Some? then previous.value.humidity else None
  }

  /** A reading is new when nothing was seen before or its capture time differs. */
  predicate IsNew(previous: Option<PreviousReading>, capturedAt: Timestamp): (b: bool)
    ensures previous.None? ==> b
    ensures previous.Some? && previous.value.capturedAt == capturedAt ==> !b
    ensures previous.Some? && previous.value.capturedAt != capturedAt ==> b
  {
    previous.None? || previous.value.capturedAt != capturedAt
  }

  /** The history without the entries carrying `id`, in their order. */
  function Without(history: seq<HistoryEntry>, id: Id): (r: seq<HistoryEntry>)
    ensures |r| <= |history|
    ensures forall e :: e in r <==> e in history && e.id != id
  {
    if |history| == 0 then []
    else if history[0].id == id then Without(history[1..], id)
    else [history[0]] + Without(history[1..], id)
  }

  /**
   * A new reading goes in front, after removing any entry with its id, and
   * the list is cut to 60; a repeated reading leaves the history as it was.
   */
  function NextHistory(history: seq<HistoryEntry>, isNew: bool, entry: HistoryEntry): (r: seq<HistoryEntry>)
    ensures !isNew ==> r == history
    ensures isNew ==> |r| > 0 && r[0] == entry && |r| <= HISTORY_LIMIT
    ensures isNew ==> forall i :: 0 < i < |r| ==> r[i].id != entry.id && r[i] in history
  {
    if isNew then Take([entry] + Without(history, entry.id), HISTORY_LIMIT) else history
  }

  // ---------------------------------------------------------------------
  // Banner
  // ---------------------------------------------------------------------

  /** The messages joined with a bar between each two. */
  function Join(messages: seq<string>): string {
    if |messages| == 0 then ""
    else if |messages| == 1 then messages[0]
    else messages[0] + "|" + Join(messages[1..])
  }

  /** The banner a reading asks for: one exactly when there are alert messages, showing the first. */
  function CandidateBanner(messages: seq<string>, capturedAt: Timestamp): (r: Option<Banner>)
    ensures r.Some? <==> |messages| > 0
    ensures r.Some? ==> r.value.id == BannerId(capturedAt, Join(messages)) && r.value.message == messages[0]
    ensures r.Some? ==> r.value.timestamp == capturedAt
  {
    if |messages| == 0 then None
    else Some(Banner(BannerId(capturedAt, Join(messages)), messages[0], capturedAt))
  }

  /**
   * The banner after a reading: none without a candidate; for a dismissed
   * candidate, the current banner unless it is that very banner; for the
   * banner already shown, the current one; otherwise the candidate.
   */
  function ResolveBanner(current: Option<Banner>, candidate: Option<Banner>, dismissed: set<BannerId>): (r: Option<Banner>)
    ensures candidate.None? ==> r.None?
    ensures r.Some? ==> r == current || r == candidate
    ensures (candidate.Some? && candidate.value.id in dismissed
             && !(current.Some? && current.value.id == candidate.value.id)) ==> r == current
    ensures (candidate.Some? && candidate.value.id !in dismissed
             && current.Some? && current.value.id == candidate.value.id) ==> r == current
    ensures (candidate.Some? && candidate.value.id !in dismissed
             && !(current.Some? && current.value.id == candidate.value.id)) ==> r == candidate
  {
    if candidate.None? then None
    else if candidate.value.id in dismissed then
      if current.Some? && current.value.id == candidate.value.id then None else current
    else if current.Some? && current.value.id == candidate.value.id then current
    else candidate
  }

  /** `dismissBanner` on the view: a banner with the dismissed id is taken down. */
  function TakeDown(v: View, id: BannerId): (r: View)
    ensures r.banner.Some? ==> r.banner.value.id != id
    ensures r.banner.Some? ==> r.banner == v.banner
    ensures v.banner.Some? && v.banner.value.id != id ==> r == v
  {
    if v.banner.Some? && v.banner.value.id == id then v.(banner := None) else v
  }

  // ---------------------------------------------------------------------
  // The log map
  // ---------------------------------------------------------------------

  /** Position of the entry with id `k`, as a `Map` lookup sees it. */
  function IndexOf(m: seq<LogEntry>, k: Id): (r: Option<nat>)
    ensures r.Some? ==> r.value < |m| && m[r.value].id == k
    ensures r.Some? ==> forall j :: 0 <= j < r.value ==> m[j].id != k
    ensures r.None? ==> forall j :: 0 <= j < |m| ==> m[j].id != k
  {
    if |m| == 0 then None
    else if m[0].id == k then Some(0)
    else
      var rest := IndexOf(m[1..], k);
      if rest.Some? then Some(rest.value + 1) else None
  }

  /** The entry stored under `k`. */
  function Get(m: seq<LogEntry>, k: Id): Option<LogEntry> {
    var i := IndexOf(m, k);
    if i.Some? then Some(m[i.value]) else None
  }

  /** Storing `e` under its id: an existing key keeps its place and takes the new value; a new key goes last. */
  function Upsert(m: seq<LogEntry>, e: LogEntry): (r: seq<LogEntry>)
    ensures |r| == |m| || |r| == |m| + 1
    ensures |r| == |m| <==> exists j :: 0 <= j < |m| && m[j].id == e.id
    ensures forall j :: 0 <= j < |m| ==> r[j].id == m[j].id
    ensures |r| == |m| + 1 ==> r[|m|] == e
  {
    var i := IndexOf(m, e.id);
    if i.Some? then m[i.value := e] else m + [e]
  }

  /** Storing every entry under its id, in order, so a later entry wins. */
  function UpsertAll(m: seq<LogEntry>, entries: seq<LogEntry>): (r: seq<LogEntry>)
    ensures |m| <= |r| <= |m| + |entries|
    ensures forall j :: 0 <= j < |m| ==> r[j].id == m[j].id
    decreases |entries|
  {
    if |entries| == 0 then m else UpsertAll(Upsert(m, entries[0]), entries[1..])
  }

  /** Storing, in order, every entry whose id has no entry yet; nothing already stored is replaced. */
  function InsertAbsent(m: seq<LogEntry>, entries: seq<LogEntry>): (r: seq<LogEntry>)
    ensures |m| <= |r| <= |m| + |entries|
    ensures forall j :: 0 <= j < |m| ==> r[j] == m[j]
    decreases |entries|
  {
    if |entries| == 0 then m
    else if IndexOf(m, entries[0].id).Some? then InsertAbsent(m, entries[1..])
    else InsertAbsent(m + [entries[0]], entries[1..])
  }

  /** The log of a new reading: critical when the reading came with alert messages, else info. */
  function ReadingLogFor(capturedAt: Timestamp, messages: seq<string>, temperature: Option<Milli>,
                         humidity: Option<Milli>): (e: LogEntry)
    ensures e.id == ReadingLogAt(capturedAt) && e.category == ReadingLog
    ensures e.severity == Some(if |messages| > 0 then CRITICAL else INFO)
  {
    LogEntry(ReadingLogAt(capturedAt), capturedAt, BASE_DEVICE_ID, ReadingLog,
             Some(if |messages| > 0 then CRITICAL else INFO), temperature, humidity)
  }

  /** The log of a server alert: critical when the alert is, else warning. */
  function AlertLogFor(a: Alert): (e: LogEntry)
    ensures e.id == a.id && e.category == AlertLog && e.timestamp == a.timestamp
    ensures e.severity == Some(if a.severity == CRITICAL then CRITICAL else WARNING)
  {
    LogEntry(a.id, a.timestamp, a.deviceId, AlertLog,
             Some(if a.severity == CRITICAL then CRITICAL else WARNING), a.temperature, a.humidity)
  }

  /** The trend log offered for a history entry, keyed `history-<entry id>`. */
  function TrendLogFor(h: HistoryEntry): (e: LogEntry)
    ensures e.id == HistoryLog(h.id) && e.category == TrendLog && e.severity == Some(INFO)
  {
    LogEntry(HistoryLog(h.id), h.timestamp, h.deviceId, TrendLog, Some(INFO), h.temperature, h.humidity)
  }

  function AlertLogs(alerts: seq<Alert>): (r: seq<LogEntry>)
    ensures |r| == |alerts|
    ensures forall i :: 0 <= i < |alerts| ==> r[i] == AlertLogFor(alerts[i])
  {
    seq(|alerts|, i requires 0 <= i < |alerts| => AlertLogFor(alerts[i]))
  }

  function TrendLogs(history: seq<HistoryEntry>): (r: seq<LogEntry>)
    ensures |r| == |history|
    ensures forall i :: 0 <= i < |history| ==> r[i] == TrendLogFor(history[i])
  {
    seq(|history|, i requires 0 <= i < |history| => TrendLogFor(history[i]))
  }

  /**
   * The log map before sorting: the current logs, then the reading log of
   * a new reading, then one log per alert, then trend logs for the newest
   * six history entries that have none yet.
   */
  function LogMap(current: seq<LogEntry>, readingLog: Option<LogEntry>, alerts: seq<Alert>,
                  history: seq<HistoryEntry>): (r: seq<LogEntry>)
    ensures |r| <= |current| + 1 + |alerts| + TREND_WINDOW
  {
    InsertAbsent(AlertMerged(current, readingLog, alerts), TrendLogs(Take(history, TREND_WINDOW)))
  }

  /** The log map after the current logs, the reading log and the alert logs went in. */
  function AlertMerged(current: seq<LogEntry>, readingLog: Option<LogEntry>, alerts: seq<Alert>): seq<LogEntry> {
    var seeded := UpsertAll([], current);
    var withReading := if readingLog.Some? then Upsert(seeded, readingLog.value) else seeded;
    UpsertAll(withReading, AlertLogs(alerts))
  }

  /** The map's values, newest first, capped at 40. */
  function MergeLogs(current: seq<LogEntry>, readingLog: Option<LogEntry>, alerts: seq<Alert>,
                     history: seq<HistoryEntry>): (r: seq<LogEntry>)
    ensures |r| <= LOG_LIMIT
    ensures SortedDesc(r, LogTime)
  {
    var sorted := SortDesc(LogMap(current, readingLog, alerts, history), LogTime);
    TakeKeepsSortedAndUnique(sorted, LOG_LIMIT, LogTime, LogId);
    Take(sorted, LOG_LIMIT)
  }

  // ---------------------------------------------------------------------
  // applyReadingUpdate
  // ---------------------------------------------------------------------

  /** The single device the live feed publishes. */
  function LiveDevice(temperature: Option<Milli>, humidity: Option<Milli>, capturedAt: Timestamp): Device {
    Device(BASE_DEVICE_ID, BASE_DEVICE_NAME, BASE_DEVICE_LOCATION, temperature, humidity, None, Online, true, capturedAt)
  }

  /**
   * `applyReadingUpdate`: merge one poll's payloads into the view.  Returns
   * the next view and the next previous-reading memory.  `now` is the clock
   * a reading without capture time falls back to.
   */
  function ApplyReadingUpdate(view: View, previous: Option<PreviousReading>, dismissed: set<BannerId>,
                              payloads: Payloads, now: Timestamp): (r: (View, Option<PreviousReading>))
    ensures payloads.reading.Some? ==> r.0.status == Live && r.0.error.None? && r.1.Some?
  {
    if payloads.reading.None? then
      (view.(status := Errored, error := Some(EMPTY_PAYLOAD)), previous)
    else
      var p := payloads.reading.value;
      var capturedAt := p.capturedAt.GetOr(now);
      var isNew := IsNew(previous, capturedAt);
      var temperatureTrend := Trend(p.temperature, PreviousTemperature(previous));
      var humidityTrend := Trend(p.humidity, PreviousHumidity(previous));
      var messages := payloads.messages.GetOr([]);
      var alerts := MapAlertHistory(payloads.history, capturedAt);
      var entry := HistoryEntry(ReadingAt(capturedAt), BASE_DEVICE_ID, p.temperature, p.humidity, capturedAt);
      var history := NextHistory(view.data.history, isNew, entry);
      var readingLog := if isNew then Some(ReadingLogFor(capturedAt, messages, p.temperature, p.humidity)) else None;
      var logs := MergeLogs(view.data.logs, readingLog, alerts, history);
      var banner := ResolveBanner(view.banner, CandidateBanner(messages, capturedAt), dismissed);
      var summary := Summary(p.temperature, p.humidity, temperatureTrend, humidityTrend, Some(capturedAt), Some(BASE_DEVICE_ID));
      var data := Snapshot(summary, [LiveDevice(p.temperature, p.humidity, capturedAt)], alerts, logs, history,
                           Some(BASE_DEVICE_ID), Some(capturedAt));
      (View(data, banner, Live, None), Some(Remembered(p, now)))
  }

  /** The memory a reading leaves once it is handled: its values and its capture time, `now` without one. */
  function Remembered(p: ReadingPayload, now: Timestamp): PreviousReading {
    PreviousReading(p.temperature, p.humidity, p.capturedAt.GetOr(now))
  }

  // ---------------------------------------------------------------------
  // setActiveDevice in live mode
  // ---------------------------------------------------------------------

  /**
   * Live `setActiveDevice` for a non-empty id: unchanged for an unknown or
   * already active id, otherwise the active flag, the active id and the
   * summary's device id move to the chosen device.
   */
  function SelectLiveDevice(v: View, id: string): (r: View)
    ensures FindDevice(v.data.devices, id).None? || v.data.activeDeviceId == Some(id) ==> r == v
    ensures FindDevice(v.data.devices, id).Some? ==> r.data.activeDeviceId == Some(id)
    ensures |r.data.devices| == |v.data.devices|
    ensures forall i :: 0 <= i < |v.data.devices| ==> r.data.devices[i].id == v.data.devices[i].id
    ensures r.banner == v.banner && r.status == v.status && r.error == v.error
    ensures r.data.alerts == v.data.alerts && r.data.logs == v.data.logs && r.data.history == v.data.history
  {
    var d := v.data;
    if FindDevice(d.devices, id).None? || d.activeDeviceId == Some(id) then v
    else
      var devices := seq(|d.devices|, i requires 0 <= i < |d.devices| => d.devices[i].(isActive := d.devices[i].id == id));
      v.(data := d.(devices := devices, activeDeviceId := Some(id), summary := d.summary.(deviceId := Some(id))))
  }
}

=== FILE: live_properties.dfy ===
/**
 * What the live merge engine promises: the log map behaves as a `Map`
 * keyed by id (last write wins, trend entries only fill gaps), the merged
 * logs are duplicate-free, newest first and capped, the history is
 * deduplicated and capped, trends are the rounded differences, a
 * dismissed banner never returns, and the published view after a reading
 * holds exactly one active device.
 */
module LiveProperties {
  import opened Common
  import opened Model
  import opened LiveMerge

  // ---------------------------------------------------------------------
  // The log map
  // ---------------------------------------------------------------------

  /** The last entry of `es` with id `k`: what a run of `map.set` leaves under `k`. */
  ghost function LastWith(es: seq<LogEntry>, k: Id): (r: Option<LogEntry>)
    ensures r.Some? ==> r.value in es && r.value.id == k
    ensures r.None? ==> forall i :: 0 <= i < |es| ==> es[i].id != k
  {
    if |es| == 0 then None
    else
      var rest := LastWith(es[1..], k);
      if rest.Some? then rest else if es[0].id == k then Some(es[0]) else None
  }

  /** The first entry of `es` with id `k`: what a run of set-if-absent leaves under a new `k`. */
  ghost function FirstWith(es: seq<LogEntry>, k: Id): (r: Option<LogEntry>)
    ensures r.Some? ==> r.value in es && r.value.id == k
    ensures r.None? ==> forall i :: 0 <= i < |es| ==> es[i].id != k
  {
    if |es| == 0 then None
    else if es[0].id == k then Some(es[0])
    else FirstWith(es[1..], k)
  }

  /** A lookup finds only what is stored under its key. */
  lemma GetFindsStored(m: seq<LogEntry>, k: Id)
    ensures Get(m, k).Some? ==> Get(m, k).value in m && Get(m, k).value.id == k
    ensures Get(m, k).None? ==> forall i :: 0 <= i < |m| ==> m[i].id != k
  {
  }

  /** In a duplicate-free map every stored entry is what a lookup of its id returns. */
  lemma GetOfMember(m: seq<LogEntry>, e: LogEntry)
    requires UniqueBy(m, LogId) && e in m
    ensures Get(m, e.id) == Some(e)
  {
    var i :| 0 <= i < |m| && m[i] == e;
    var j := IndexOf(m, e.id).value;
    assert LogId(m[i]) == LogId(m[j]);
  }

  /** `IndexOf` looks only at ids. */
  lemma {:induction false} IndexOfByIds(a: seq<LogEntry>, b: seq<LogEntry>, k: Id)
    requires |a| == |b|
    requires forall i :: 0 <= i < |a| ==> a[i].id == b[i].id
    ensures IndexOf(a, k) == IndexOf(b, k)
  {
    if |a| > 0 && a[0].id != k {
      IndexOfByIds(a[1..], b[1..], k);
    }
  }

  /** Appending an entry with a new id leaves every other lookup alone. */
  lemma {:induction false} IndexOfAppend(m: seq<LogEntry>, e: LogEntry, k: Id)
    requires IndexOf(m, e.id).None?
    ensures IndexOf(m + [e], k) == if k == e.id then Some(|m|) else IndexOf(m, k)
  {
    if |m| == 0 {
      assert m + [e] == [e];
      IndexOfFirst([e], k);
      assert [e][1..] == [];
    } else {
      DropFirstOfAppend(m, [e]);
      IndexOfFirst(m + [e], k);
      IndexOfFirst(m, k);
      IndexOfFirst(m, e.id);
      if m[0].id != k {
        IndexOfAppend(m[1..], e, k);
      }
    }
  }

  /** A lookup looks at the first entry, then at the rest, shifting what it finds there by one. */
  lemma IndexOfFirst(m: seq<LogEntry>, k: Id)
    requires |m| > 0
    ensures IndexOf(m, k) ==
      if m[0].id == k then Some(0)
      else if IndexOf(m[1..], k).Some? then Some(IndexOf(m[1..], k).value + 1)
      else None
  {
  }

  /**
   * Storing `e` under its id: afterwards `e` is found under its id, every other
   * key keeps its entry, and ids stay unique.
   */
  lemma UpsertSpec(m: seq<LogEntry>, e: LogEntry)
    requires UniqueBy(m, LogId)
    ensures UniqueBy(Upsert(m, e), LogId)
    ensures forall k :: Get(Upsert(m, e), k) == if k == e.id then Some(e) else Get(m, k)
  {
    var r := Upsert(m, e);
    var i := IndexOf(m, e.id);
    if i.Some? {
      forall j | 0 <= j < |m| ensures r[j].id == m[j].id {
      }
      forall k ensures IndexOf(r, k) == IndexOf(m, k) {
        IndexOfByIds(r, m, k);
      }
      assert UniqueBy(r, LogId) by {
        forall a, b | 0 <= a < b < |r| ensures LogId(r[a]) != LogId(r[b]) {
          assert LogId(m[a]) != LogId(m[b]);
        }
      }
    } else {
      forall k ensures IndexOf(r, k) == if k == e.id then Some(|m|) else IndexOf(m, k) {
        IndexOfAppend(m, e, k);
      }
      assert UniqueBy(r, LogId) by {
        forall a, b | 0 <= a < b < |r| ensures LogId(r[a]) != LogId(r[b]) {
          if b < |m| {
            assert LogId(m[a]) != LogId(m[b]);
          }
        }
      }
    }
  }

  /** A run of `map.set`: the last entry written under a key wins, untouched keys keep theirs. */
  lemma {:induction false} UpsertAllSpec(m: seq<LogEntry>, es: seq<LogEntry>)
    requires UniqueBy(m, LogId)
    ensures UniqueBy(UpsertAll(m, es), LogId)
    ensures forall k :: Get(UpsertAll(m, es), k) == if LastWith(es, k).Some? then LastWith(es, k) else Get(m, k)
    decreases |es|
  {
    if |es| > 0 {
      UpsertSpec(m, es[0]);
      UpsertAllSpec(Upsert(m, es[0]), es[1..]);
    }
  }

  /** A run of set-if-absent: present keys keep their entry, a new key takes its first entry. */
  lemma {:induction false} InsertAbsentSpec(m: seq<LogEntry>, es: seq<LogEntry>)
    requires UniqueBy(m, LogId)
    ensures UniqueBy(InsertAbsent(m, es), LogId)
    ensures forall k :: Get(InsertAbsent(m, es), k) == if Get(m, k).Some? then Get(m, k) else FirstWith(es, k)
    decreases |es|
  {
    if |es| > 0 {
      if IndexOf(m, es[0].id).Some? {
        InsertAbsentSpec(m, es[1..]);
      } else {
        assert m + [es[0]] == Upsert(m, es[0]);
        UpsertSpec(m, es[0]);
        InsertAbsentSpec(m + [es[0]], es[1..]);
      }
    }
  }

  /**
   * The map before sorting, key by key: an alert log written last for the
   * key, else the reading log of a new reading, else the last current log
   * with that key; a trend log only where none of those exists.
   */
  lemma LogMapSpec(current: seq<LogEntry>, readingLog: Option<LogEntry>, alerts: seq<Alert>, history: seq<HistoryEntry>)
    ensures UniqueBy(LogMap(current, readingLog, alerts, history), LogId)
    ensures
      forall k :: Get(AlertMerged(current, readingLog, alerts), k) ==
        (if LastWith(AlertLogs(alerts), k).Some? then LastWith(AlertLogs(alerts), k)
         else if readingLog.Some? && readingLog.value.id == k then readingLog
         else LastWith(current, k))
    ensures
      forall k :: Get(LogMap(current, readingLog, alerts, history), k) ==
        (var merged := Get(AlertMerged(current, readingLog, alerts), k);
         if merged.Some? then merged else FirstWith(TrendLogs(Take(history, TREND_WINDOW)), k))
  {
    var empty: seq<LogEntry> := [];
    UpsertAllSpec(empty, current);
    var seeded := UpsertAll(empty, current);
    if readingLog.Some? {
      UpsertSpec(seeded, readingLog.value);
    }
    var withReading := if readingLog.Some? then Upsert(seeded, readingLog.value) else seeded;
    UpsertAllSpec(withReading, AlertLogs(alerts));
    InsertAbsentSpec(AlertMerged(current, readingLog, alerts), TrendLogs(Take(history, TREND_WINDOW)));
  }

  /** Every published entry is the map's entry for its key. */
  lemma NewestKeptAreStored(m: seq<LogEntry>)
    requires UniqueBy(m, LogId)
    ensures forall e :: e in Take(SortDesc(m, LogTime), LOG_LIMIT) ==> Get(m, e.id) == Some(e)
  {
    var sorted := SortDesc(m, LogTime);
    var r := Take(sorted, LOG_LIMIT);
    forall e | e in r ensures Get(m, e.id) == Some(e) {
      var i :| 0 <= i < |r| && r[i] == e;
      assert sorted[i] == e;
      assert e in multiset(sorted);
      GetOfMember(m, e);
    }
  }

  /** An entry is left out only when the cap is full of entries at least as new. */
  lemma DroppedAreOldest(m: seq<LogEntry>)
    ensures var r := Take(SortDesc(m, LogTime), LOG_LIMIT);
      forall e :: e in m && e !in r ==> |r| == LOG_LIMIT && forall f :: f in r ==> f.timestamp >= e.timestamp
  {
    var sorted := SortDesc(m, LogTime);
    var r := Take(sorted, LOG_LIMIT);
    forall e | e in m && e !in r ensures |r| == LOG_LIMIT && forall f :: f in r ==> f.timestamp >= e.timestamp {
      assert e in multiset(m);
      assert e in multiset(sorted);
      var j :| 0 <= j < |sorted| && sorted[j] == e;
      assert j >= |r| by {
        assert forall i :: 0 <= i < |r| ==> sorted[i] != e;
      }
      forall f | f in r ensures f.timestamp >= e.timestamp {
        var i :| 0 <= i < |r| && r[i] == f;
        assert LogTime(sorted[i]) >= LogTime(sorted[j]);
      }
    }
  }

  /**
   * The published logs: duplicate-free, newest first, at most 40, each one
   * the map's entry for its key; an entry is left out only when 40 entries
   * at least as new are kept, and nothing is left out when the map fits.
   */
  lemma MergeLogsSpec(current: seq<LogEntry>, readingLog: Option<LogEntry>, alerts: seq<Alert>, history: seq<HistoryEntry>)
    ensures var r := MergeLogs(current, readingLog, alerts, history);
      var m := LogMap(current, readingLog, alerts, history);
      && UniqueBy(r, LogId) && SortedDesc(r, LogTime) && |r| <= LOG_LIMIT
      && (forall e :: e in r ==> Get(m, e.id) == Some(e))
      && (forall e :: e in m && e !in r ==> |r| == LOG_LIMIT && forall f :: f in r ==> f.timestamp >= e.timestamp)
      && (|m| <= LOG_LIMIT ==> multiset(r) == multiset(m))
  {
    var m := LogMap(current, readingLog, alerts, history);
    LogMapSpec(current, readingLog, alerts, history);
    var sorted := SortDesc(m, LogTime);
    SortDescKeepsUnique(m, LogTime, LogId);
    TakeKeepsSortedAndUnique(sorted, LOG_LIMIT, LogTime, LogId);
    NewestKeptAreStored(m);
    DroppedAreOldest(m);
    if |m| <= LOG_LIMIT {
      assert Take(sorted, LOG_LIMIT) == sorted;
    }
  }

  // ---------------------------------------------------------------------
  // mapAlertHistory
  // ---------------------------------------------------------------------

  /**
   * Without an alert array the mapper yields nothing; otherwise it yields
   * one mapped record per server alert (a permutation), sorted newest first.
   */
  lemma MapAlertHistorySpec(history: Option<seq<RawAlert>>, capturedAt: Timestamp)
    ensures var r := MapAlertHistory(history, capturedAt);
      && (history.None? ==> r == [])
      && (history.Some? ==> |r| == |history.value|)
      && (forall a :: a in r ==> exists i :: 0 <= i < |history.value| && a == MapAlert(history.value[i], capturedAt))
      && (history.Some? ==> forall i :: 0 <= i < |history.value| ==> MapAlert(history.value[i], capturedAt) in r)
      && (forall i, j :: 0 <= i < j < |r| ==> r[i].timestamp >= r[j].timestamp)
  {
    var r := MapAlertHistory(history, capturedAt);
    if history.Some? {
      var mapped := MapAll(history.value, capturedAt);
      assert |r| == |mapped| by {
        assert |multiset(r)| == |multiset(mapped)|;
      }
      forall a | a in r ensures exists i :: 0 <= i < |history.value| && a == MapAlert(history.value[i], capturedAt) {
        assert a in multiset(mapped);
        var i :| 0 <= i < |mapped| && mapped[i] == a;
      }
      forall i | 0 <= i < |history.value| ensures MapAlert(history.value[i], capturedAt) in r {
        assert mapped[i] in multiset(r);
      }
    }
    forall i, j | 0 <= i < j < |r| ensures r[i].timestamp >= r[j].timestamp {
      assert AlertTime(r[i]) >= AlertTime(r[j]);
    }
  }

  /** Mapped alert ids are keyed by the server id or the timestamp, never like a reading log or trend log. */
  lemma MappedAlertIds(history: Option<seq<RawAlert>>, capturedAt: Timestamp)
    ensures forall a :: a in MapAlertHistory(history, capturedAt) ==> a.id.ServerAlert? || a.id.AlertAt?
  {
    MapAlertHistorySpec(history, capturedAt);
  }

  /** Lower-casing is idempotent, so a severity is already in its normal form. */
  lemma ToLowerIdempotent(s: string)
    ensures ToLower(ToLower(s)) == ToLower(s)
  {
    var once := ToLower(s);
    assert |ToLower(once)| == |once|;
    forall i | 0 <= i < |once| ensures ToLower(once)[i] == once[i] {
      assert !('A' <= once[i] <= 'Z');
    }
  }

  // ---------------------------------------------------------------------
  // Trend and history
  // ---------------------------------------------------------------------

  /** Swapping the two readings negates the trend: rounding ties away from zero is symmetric. */
  lemma TrendAntisymmetric(a: Milli, b: Milli)
    ensures Trend(Some(a), Some(b)) == -Trend(Some(b), Some(a))
  {
    RoundHalfUpOnGrid(0, HUNDREDTHS);
  }

  /** A difference already on the hundredths grid is reported exactly. */
  lemma TrendExactOnGrid(a: Milli, b: Milli)
    requires (a - b) % HUNDREDTHS == 0
    ensures Trend(Some(a), Some(b)) == a - b
  {
    if a - b >= 0 {
      RoundHalfUpOnGrid(a - b, HUNDREDTHS);
    } else {
      RoundHalfUpOnGrid(b - a, HUNDREDTHS);
    }
  }

  /** Filtering out an id keeps the other entries duplicate-free. */
  lemma {:induction false} WithoutKeepsUnique(history: seq<HistoryEntry>, id: Id)
    requires UniqueBy(history, HistoryId)
    ensures UniqueBy(Without(history, id), HistoryId)
  {
    if |history| > 0 {
      var t := history[1..];
      assert UniqueBy(t, HistoryId);
      WithoutKeepsUnique(t, id);
      if history[0].id != id {
        var w := Without(t, id);
        var r := [history[0]] + w;
        forall a, b | 0 <= a < b < |r| ensures HistoryId(r[a]) != HistoryId(r[b]) {
          if a == 0 {
            assert r[b] == w[b - 1] && w[b - 1] in t;
            HeadIdNotInRest(history, w[b - 1]);
          } else {
            assert r[a] == w[a - 1] && r[b] == w[b - 1];
          }
        }
      }
    }
  }

  /** In a duplicate-free history, no later entry carries the first entry's id. */
  lemma HeadIdNotInRest(history: seq<HistoryEntry>, e: HistoryEntry)
    requires UniqueBy(history, HistoryId) && |history| > 0 && e in history[1..]
    ensures e.id != history[0].id
  {
    var j :| 0 <= j < |history[1..]| && history[1..][j] == e;
    assert history[j + 1] == e;
  }

  /**
   * Filtering distributes over concatenation; with `WithoutSingle` this
   * says it keeps the order and the multiplicity of everything it does not
   * remove.
   */
  lemma {:induction false} WithoutAppend(a: seq<HistoryEntry>, b: seq<HistoryEntry>, id: Id)
    ensures Without(a + b, id) == Without(a, id) + Without(b, id)
  {
    if |a| == 0 {
      assert a + b == b;
    } else {
      var head := if a[0].id == id then [] else [a[0]];
      calc {
        Without(a + b, id);
        == { WithoutFirst(a + b, id); DropFirstOfAppend(a, b); }
        head + Without(a[1..] + b, id);
        == { WithoutAppend(a[1..], b, id); }
        head + (Without(a[1..], id) + Without(b, id));
        == { AppendAssociates(head, Without(a[1..], id), Without(b, id)); }
        (head + Without(a[1..], id)) + Without(b, id);
        == { WithoutFirst(a, id); }
        Without(a, id) + Without(b, id);
      }
    }
  }

  /** Dropping the first element of a concatenation drops it from the left part. */
  lemma DropFirstOfAppend<T>(a: seq<T>, b: seq<T>)
    requires |a| > 0
    ensures (a + b)[0] == a[0] && (a + b)[1..] == a[1..] + b
  {
  }

  lemma AppendAssociates<T>(x: seq<T>, y: seq<T>, z: seq<T>)
    ensures x + (y + z) == (x + y) + z
  {
  }

  /** A single entry is kept exactly when its id differs. */
  lemma WithoutSingle(h: HistoryEntry, id: Id)
    ensures Without([h], id) == (if h.id == id then [] else [h])
  {
    WithoutFirst([h], id);
    assert [h][1..] == [];
  }

  /** Filtering a non-empty history looks at its first entry, then filters the rest. */
  lemma WithoutFirst(h: seq<HistoryEntry>, id: Id)
    requires |h| > 0
    ensures Without(h, id) == (if h[0].id == id then [] else [h[0]]) + Without(h[1..], id)
  {
  }

  /** The history after a reading is duplicate-free by id when it was before. */
  lemma NextHistoryKeepsUnique(history: seq<HistoryEntry>, isNew: bool, entry: HistoryEntry)
    requires UniqueBy(history, HistoryId)
    ensures UniqueBy(NextHistory(history, isNew, entry), HistoryId)
  {
    if isNew {
      WithoutKeepsUnique(history, entry.id);
      var w := Without(history, entry.id);
      var full := [entry] + w;
      assert UniqueBy(full, HistoryId) by {
        forall a, b | 0 <= a < b < |full| ensures HistoryId(full[a]) != HistoryId(full[b]) {
          if a > 0 {
            assert full[a] == w[a - 1] && full[b] == w[b - 1];
          } else {
            assert full[b] == w[b - 1];
          }
        }
      }
      TakeKeepsSortedAndUnique(full, HISTORY_LIMIT, (h: HistoryEntry) => h.timestamp, HistoryId);
    }
  }

  // ---------------------------------------------------------------------
  // Banner
  // ---------------------------------------------------------------------

  /** Once an id is dismissed, resolution never shows a banner with that id. */
  lemma DismissedCandidateStaysDown(current: Option<Banner>, candidate: Option<Banner>, dismissed: set<BannerId>)
    requires current.None? || current.value.id !in dismissed
    ensures var r := ResolveBanner(current, candidate, dismissed);
      r.None? || r.value.id !in dismissed
  {
  }

  /** Resolving the same candidate again changes nothing: a repeated reading does not re-raise a banner. */
  lemma ResolveBannerIdempotent(current: Option<Banner>, candidate: Option<Banner>, dismissed: set<BannerId>)
    ensures var once := ResolveBanner(current, candidate, dismissed);
      ResolveBanner(once, candidate, dismissed) == once
  {
  }

  /** Taking down a banner and then resolving never brings the taken-down id back. */
  lemma DismissThenResolve(v: View, id: BannerId, candidate: Option<Banner>, dismissed: set<BannerId>)
    requires v.banner.None? || v.banner.value.id !in dismissed
    ensures var r := ResolveBanner(TakeDown(v, id).banner, candidate, dismissed + {id});
      r.None? || r.value.id !in dismissed + {id}
  {
  }

  /** No message contains the bar that joins messages into a banner id. */
  ghost predicate BarFree(messages: seq<string>) {
    forall i, j :: 0 <= i < |messages| && 0 <= j < |messages[i]| ==> messages[i][j] != '|'
  }

  /** One message joins to itself; more than one put a bar right after the first. */
  lemma JoinBars(messages: seq<string>)
    requires |messages| > 0 && BarFree(messages)
    ensures |messages| == 1 ==> forall j :: 0 <= j < |Join(messages)| ==> Join(messages)[j] != '|'
    ensures |messages| > 1 ==> |messages[0]| < |Join(messages)| && Join(messages)[|messages[0]|] == '|'
  {
    if |messages| == 1 {
      assert Join(messages) == messages[0];
    }
  }

  /** Below the shorter bar-free head, two barred strings differ at the shorter head's length. */
  lemma BarAfterShorterHead(x: string, s: string, y: string, t: string)
    requires forall j :: 0 <= j < |y| ==> y[j] != '|'
    ensures |x| < |y| ==> (x + "|" + s)[|x|] != (y + "|" + t)[|x|]
  {
    if |x| < |y| {
      assert (x + "|" + s)[|x|] == '|';
      assert (y + "|" + t)[|x|] == y[|x|];
    }
  }

  /** Two bar-free heads followed by a bar split a string the same way. */
  lemma SplitAtFirstBar(x: string, s: string, y: string, t: string)
    requires forall j :: 0 <= j < |x| ==> x[j] != '|'
    requires forall j :: 0 <= j < |y| ==> y[j] != '|'
    ensures x + "|" + s == y + "|" + t ==> x == y && s == t
  {
    if x + "|" + s == y + "|" + t {
      var w := x + "|" + s;
      BarAfterShorterHead(x, s, y, t);
      BarAfterShorterHead(y, t, x, s);
      assert |x| == |y|;
      assert x == w[..|x|] && y == w[..|y|];
      assert s == w[|x| + 1..] && t == w[|y| + 1..];
    }
  }

  /** Joining non-empty lists of bar-free messages loses nothing: equal joins come from equal lists. */
  lemma {:induction false} JoinInjective(a: seq<string>, b: seq<string>)
    requires |a| > 0 && |b| > 0 && BarFree(a) && BarFree(b)
    ensures Join(a) == Join(b) ==> a == b
  {
    if Join(a) == Join(b) {
      JoinBars(a);
      JoinBars(b);
      if |a| == 1 {
        assert |b| == 1;
        assert a == [a[0]] && b == [b[0]];
      } else {
        assert |b| > 1;
        assert a[0] == a[0][..] && b[0] == b[0][..];
        SplitAtFirstBar(a[0], Join(a[1..]), b[0], Join(b[1..]));
        assert BarFree(a[1..]) by {
          forall i, j | 0 <= i < |a[1..]| && 0 <= j < |a[1..][i]| ensures a[1..][i][j] != '|' {
            assert a[1..][i] == a[i + 1];
          }
        }
        assert BarFree(b[1..]) by {
          forall i, j | 0 <= i < |b[1..]| && 0 <= j < |b[1..][i]| ensures b[1..][i][j] != '|' {
            assert b[1..][i] == b[i + 1];
          }
        }
        JoinInjective(a[1..], b[1..]);
        assert a == [a[0]] + a[1..] && b == [b[0]] + b[1..];
      }
    }
  }

  /**
   * Readings at one time with different bar-free messages ask for banners
   * with different ids, so dismissing one never hides the other.
   */
  lemma CandidateIdsTellMessagesApart(a: seq<string>, b: seq<string>, capturedAt: Timestamp)
    requires |a| > 0 && |b| > 0 && BarFree(a) && BarFree(b) && a != b
    ensures CandidateBanner(a, capturedAt).value.id != CandidateBanner(b, capturedAt).value.id
  {
    JoinInjective(a, b);
  }

  /** A message with a bar in it asks for the same banner id as the two messages around the bar. */
  lemma BarredMessageSharesCandidateId(capturedAt: Timestamp)
    ensures CandidateBanner(["a|b"], capturedAt).value.id == CandidateBanner(["a", "b"], capturedAt).value.id
  {
    assert Join(["a", "b"]) == "a" + "|" + Join(["b"]);
    assert ["a", "b"][1..] == ["b"];
  }

  // ---------------------------------------------------------------------
  // applyReadingUpdate
  // ---------------------------------------------------------------------

  /** A missing reading payload only flags the error; nothing else changes, the memory included. */
  lemma EmptyPayloadOnlyFlagsError(view: View, previous: Option<PreviousReading>, dismissed: set<BannerId>,
                                   payloads: Payloads, now: Timestamp)
    requires payloads.reading.None?
    ensures var (v, p) := ApplyReadingUpdate(view, previous, dismissed, payloads, now);
      && v.status == Errored && v.error == Some(EMPTY_PAYLOAD)
      && v.data == view.data && v.banner == view.banner && p == previous
  {
  }

  /**
   * A reading publishes exactly one device, active and online, which the
   * active id and summary point at; the summary carries the reading and
   * the trends against the previous memory, which the reading replaces.
   */
  lemma ReadingPublishesOneDevice(view: View, previous: Option<PreviousReading>, dismissed: set<BannerId>,
                                  payloads: Payloads, now: Timestamp)
    requires payloads.reading.Some?
    ensures var (v, p) := ApplyReadingUpdate(view, previous, dismissed, payloads, now);
      var reading := payloads.reading.value;
      var capturedAt := reading.capturedAt.GetOr(now);
      && |v.data.devices| == 1 && OnlyActiveAt(v.data.devices, 0)
      && v.data.devices[0].status == Online && v.data.devices[0].id == BASE_DEVICE_ID
      && v.data.activeDeviceId == Some(v.data.devices[0].id) && v.data.summary.deviceId == v.data.activeDeviceId
      && v.status == Live && v.error.None?
      && v.data.summary.temperature == reading.temperature && v.data.summary.humidity == reading.humidity
      && v.data.summary.temperatureTrend == Trend(reading.temperature, PreviousTemperature(previous))
      && v.data.summary.humidityTrend == Trend(reading.humidity, PreviousHumidity(previous))
      && v.data.lastUpdated == Some(capturedAt) && v.data.summary.lastUpdated == Some(capturedAt)
      && v.data.alerts == MapAlertHistory(payloads.history, capturedAt)
      && p == Some(PreviousReading(reading.temperature, reading.humidity, capturedAt))
  {
  }

  /**
   * The reading just merged is remembered, so the same payloads polled again
   * are not a new reading: the history stays as the first merge left it.
   */
  lemma RepeatedPollKeepsHistory(view: View, previous: Option<PreviousReading>, dismissed: set<BannerId>,
                                 payloads: Payloads, now: Timestamp)
    requires payloads.reading.Some?
    ensures var (v, p) := ApplyReadingUpdate(view, previous, dismissed, payloads, now);
      var capturedAt := payloads.reading.value.capturedAt.GetOr(now);
      && !IsNew(p, capturedAt)
      && ApplyReadingUpdate(v, p, dismissed, payloads, now).0.data.history == v.data.history
  {
  }

  /**
   * Only a new reading touches the history: it then leads with the
   * reading's entry, holds no other entry with that id, keeps the older
   * entries in order and holds at most 60.  A repeated reading leaves the
   * history identical.
   */
  lemma ReadingHistoryRules(view: View, previous: Option<PreviousReading>, dismissed: set<BannerId>,
                            payloads: Payloads, now: Timestamp)
    requires payloads.reading.Some?
    ensures var v := ApplyReadingUpdate(view, previous, dismissed, payloads, now).0;
      var reading := payloads.reading.value;
      var capturedAt := reading.capturedAt.GetOr(now);
      var h := v.data.history;
      && (!IsNew(previous, capturedAt) ==> h == view.data.history)
      && (IsNew(previous, capturedAt) ==>
            && |h| > 0 && |h| <= HISTORY_LIMIT
            && h[0] == HistoryEntry(ReadingAt(capturedAt), BASE_DEVICE_ID, reading.temperature, reading.humidity, capturedAt)
            && (forall i :: 0 < i < |h| ==> h[i].id != ReadingAt(capturedAt) && h[i] in view.data.history)
            && h[1..] == Take(Without(view.data.history, ReadingAt(capturedAt)), HISTORY_LIMIT - 1))
      && (UniqueBy(view.data.history, HistoryId) ==> UniqueBy(h, HistoryId))
  {
    var reading := payloads.reading.value;
    var capturedAt := reading.capturedAt.GetOr(now);
    var entry := HistoryEntry(ReadingAt(capturedAt), BASE_DEVICE_ID, reading.temperature, reading.humidity, capturedAt);
    var isNew := IsNew(previous, capturedAt);
    assert ApplyReadingUpdate(view, previous, dismissed, payloads, now).0.data.history
        == NextHistory(view.data.history, isNew, entry);
    if UniqueBy(view.data.history, HistoryId) {
      NextHistoryKeepsUnique(view.data.history, isNew, entry);
    }
    if isNew {
      NewReadingLeadsHistory(view.data.history, entry);
    }
  }

  /** A new entry leads the history, followed by the older entries without its id, cut to 60 in all. */
  lemma NewReadingLeadsHistory(history: seq<HistoryEntry>, entry: HistoryEntry)
    ensures var h := NextHistory(history, true, entry);
      h[1..] == Take(Without(history, entry.id), HISTORY_LIMIT - 1)
  {
    var w := Without(history, entry.id);
    var h := NextHistory(history, true, entry);
    var t := Take(w, HISTORY_LIMIT - 1);
    assert |h[1..]| == |t|;
    forall i | 0 <= i < |t| ensures h[1..][i] == t[i] {
      assert h[i + 1] == ([entry] + w)[i + 1];
    }
  }

  /** `e` is published, or it was crowded out: forty published logs are at least as new as it. */
  ghost predicate KeptOrCrowdedOut(logs: seq<LogEntry>, e: LogEntry) {
    e in logs || (|logs| == LOG_LIMIT && forall f :: f in logs ==> f.timestamp >= e.timestamp)
  }

  /** Every published log is the log map's entry for its key. */
  lemma PublishedAreStored(current: seq<LogEntry>, readingLog: Option<LogEntry>, alerts: seq<Alert>,
                           history: seq<HistoryEntry>)
    ensures forall e :: e in MergeLogs(current, readingLog, alerts, history) ==>
      Get(LogMap(current, readingLog, alerts, history), e.id) == Some(e)
  {
    LogMapSpec(current, readingLog, alerts, history);
    NewestKeptAreStored(LogMap(current, readingLog, alerts, history));
  }

  /** A reading log is published exactly as built or crowded out, and no other log takes its id. */
  ghost predicate ReadingLogPublished(logs: seq<LogEntry>, readingLog: LogEntry) {
    KeptOrCrowdedOut(logs, readingLog) && forall e :: e in logs && e.id == readingLog.id ==> e == readingLog
  }

  /** Every published log keyed like an alert is the log of one of the alerts. */
  ghost predicate AlertKeyedAreAlertLogs(logs: seq<LogEntry>, alerts: seq<Alert>) {
    forall e :: e in logs && (exists a :: a in alerts && a.id == e.id) ==> exists a :: a in alerts && e == AlertLogFor(a)
  }

  /** For every alert, the log of some alert with its id is published or crowded out. */
  ghost predicate AlertLogsPublished(logs: seq<LogEntry>, alerts: seq<Alert>) {
    forall a :: a in alerts ==>
      exists j :: 0 <= j < |alerts| && alerts[j].id == a.id && KeptOrCrowdedOut(logs, AlertLogFor(alerts[j]))
  }

  /** An entry of the log map is published or crowded out by forty entries at least as new. */
  lemma StoredIsKeptOrCrowdedOut(current: seq<LogEntry>, readingLog: Option<LogEntry>, alerts: seq<Alert>,
                                 history: seq<HistoryEntry>, e: LogEntry)
    requires Get(LogMap(current, readingLog, alerts, history), e.id) == Some(e)
    ensures KeptOrCrowdedOut(MergeLogs(current, readingLog, alerts, history), e)
  {
    MergeLogsSpec(current, readingLog, alerts, history);
    GetFindsStored(LogMap(current, readingLog, alerts, history), e.id);
  }

  /**
   * A reading log whose id no alert shares is published exactly as built,
   * or crowded out by forty logs at least as new; no other log takes its id.
   */
  lemma MergedReadingLog(current: seq<LogEntry>, readingLog: LogEntry, alerts: seq<Alert>, history: seq<HistoryEntry>)
    requires forall a :: a in alerts ==> a.id != readingLog.id
    ensures ReadingLogPublished(MergeLogs(current, Some(readingLog), alerts, history), readingLog)
  {
    MergeLogsSpec(current, Some(readingLog), alerts, history);
    LogMapSpec(current, Some(readingLog), alerts, history);
    var alertLogs := AlertLogs(alerts);
    assert LastWith(alertLogs, readingLog.id).None? by {
      forall i | 0 <= i < |alertLogs| ensures alertLogs[i].id != readingLog.id {
        assert alerts[i] in alerts;
      }
    }
    assert Get(LogMap(current, Some(readingLog), alerts, history), readingLog.id) == Some(readingLog);
    StoredIsKeptOrCrowdedOut(current, Some(readingLog), alerts, history, readingLog);
  }

  /** Under an alert's id the log map holds the log of the last alert with that id. */
  lemma AlertKeyReadsAlertLog(current: seq<LogEntry>, readingLog: Option<LogEntry>, alerts: seq<Alert>,
                              history: seq<HistoryEntry>, i: nat)
    requires i < |alerts|
    ensures exists j :: (0 <= j < |alerts| && alerts[j].id == alerts[i].id
                         && Get(LogMap(current, readingLog, alerts, history), alerts[i].id) == Some(AlertLogFor(alerts[j])))
  {
    LogMapSpec(current, readingLog, alerts, history);
    var alertLogs := AlertLogs(alerts);
    assert alertLogs[i].id == alerts[i].id;
    var last := LastWith(alertLogs, alerts[i].id).value;
    var j :| 0 <= j < |alertLogs| && alertLogs[j] == last;
    assert last == AlertLogFor(alerts[j]);
  }

  /**
   * For every alert, the log of the last alert with its id is published,
   * or crowded out by forty logs at least as new.
   */
  lemma AlertLogsKept(current: seq<LogEntry>, readingLog: Option<LogEntry>, alerts: seq<Alert>, history: seq<HistoryEntry>)
    ensures AlertLogsPublished(MergeLogs(current, readingLog, alerts, history), alerts)
  {
    forall a | a in alerts
      ensures exists j :: 0 <= j < |alerts| && alerts[j].id == a.id
                && KeptOrCrowdedOut(MergeLogs(current, readingLog, alerts, history), AlertLogFor(alerts[j]))
    {
      var i :| 0 <= i < |alerts| && alerts[i] == a;
      AlertKeyReadsAlertLog(current, readingLog, alerts, history, i);
      var j :| (0 <= j < |alerts| && alerts[j].id == a.id
                && Get(LogMap(current, readingLog, alerts, history), a.id) == Some(AlertLogFor(alerts[j])));
      StoredIsKeptOrCrowdedOut(current, readingLog, alerts, history, AlertLogFor(alerts[j]));
    }
  }

  /** Every kept log keyed like one of the alerts is the log of one of those alerts. */
  lemma MergedAlertLogs(current: seq<LogEntry>, readingLog: Option<LogEntry>, alerts: seq<Alert>, history: seq<HistoryEntry>)
    ensures AlertKeyedAreAlertLogs(MergeLogs(current, readingLog, alerts, history), alerts)
  {
    PublishedAreStored(current, readingLog, alerts, history);
    forall e | e in MergeLogs(current, readingLog, alerts, history) && (exists a :: a in alerts && a.id == e.id)
      ensures exists a :: a in alerts && e == AlertLogFor(a)
    {
      var a :| a in alerts && a.id == e.id;
      var i :| 0 <= i < |alerts| && alerts[i] == a;
      AlertKeyReadsAlertLog(current, readingLog, alerts, history, i);
      var j :| (0 <= j < |alerts| && alerts[j].id == a.id
                && Get(LogMap(current, readingLog, alerts, history), a.id) == Some(AlertLogFor(alerts[j])));
      assert alerts[j] in alerts;
    }
  }

  /**
   * The published logs are duplicate-free, newest first and at most 40.
   * A new reading's log, if kept, is critical exactly when alert messages
   * came with it; every kept log keyed like a current alert is that
   * alert's log, critical exactly when the alert is.
   */
  lemma ReadingLogRules(view: View, previous: Option<PreviousReading>, dismissed: set<BannerId>,
                        payloads: Payloads, now: Timestamp)
    requires payloads.reading.Some?
    ensures var v := ApplyReadingUpdate(view, previous, dismissed, payloads, now).0;
      var reading := payloads.reading.value;
      var capturedAt := reading.capturedAt.GetOr(now);
      var messages := payloads.messages.GetOr([]);
      var logs := v.data.logs;
      && UniqueBy(logs, LogId) && SortedDesc(logs, LogTime) && |logs| <= LOG_LIMIT
      && (IsNew(previous, capturedAt) ==>
            ReadingLogPublished(logs, ReadingLogFor(capturedAt, messages, reading.temperature, reading.humidity)))
      && AlertKeyedAreAlertLogs(logs, v.data.alerts)
      && AlertLogsPublished(logs, v.data.alerts)
  {
    var reading := payloads.reading.value;
    var capturedAt := reading.capturedAt.GetOr(now);
    var messages := payloads.messages.GetOr([]);
    var isNew := IsNew(previous, capturedAt);
    var alerts := MapAlertHistory(payloads.history, capturedAt);
    var entry := HistoryEntry(ReadingAt(capturedAt), BASE_DEVICE_ID, reading.temperature, reading.humidity, capturedAt);
    var history := NextHistory(view.data.history, isNew, entry);
    var readingLog := if isNew then Some(ReadingLogFor(capturedAt, messages, reading.temperature, reading.humidity)) else None;
    var v := ApplyReadingUpdate(view, previous, dismissed, payloads, now).0;
    assert v.data.logs == MergeLogs(view.data.logs, readingLog, alerts, history);
    assert v.data.alerts == alerts;
    if isNew {
      MappedAlertIds(payloads.history, capturedAt);
    }
    MergedLogsRules(view.data.logs, readingLog, alerts, history);
  }

  /** The merged logs are duplicate-free, newest first and at most 40. */
  lemma MergedLogsShape(current: seq<LogEntry>, readingLog: Option<LogEntry>, alerts: seq<Alert>,
                        history: seq<HistoryEntry>)
    ensures var logs := MergeLogs(current, readingLog, alerts, history);
      UniqueBy(logs, LogId) && SortedDesc(logs, LogTime) && |logs| <= LOG_LIMIT
  {
    MergeLogsSpec(current, readingLog, alerts, history);
  }

  /**
   * The merged logs are duplicate-free, newest first and at most 40; a
   * reading log no alert shares an id with is published as built or
   * crowded out, and no other log takes its id; every log keyed like an
   * alert is that alert's log, and every alert id has its log published or
   * crowded out.
   */
  lemma MergedLogsRules(current: seq<LogEntry>, readingLog: Option<LogEntry>, alerts: seq<Alert>,
                        history: seq<HistoryEntry>)
    ensures var logs := MergeLogs(current, readingLog, alerts, history);
      && UniqueBy(logs, LogId) && SortedDesc(logs, LogTime) && |logs| <= LOG_LIMIT
      && (readingLog.Some? && (forall a :: a in alerts ==> a.id != readingLog.value.id) ==>
            ReadingLogPublished(logs, readingLog.value))
      && AlertKeyedAreAlertLogs(logs, alerts)
      && AlertLogsPublished(logs, alerts)
  {
    MergedLogsShape(current, readingLog, alerts, history);
    MergedAlertLogs(current, readingLog, alerts, history);
    AlertLogsKept(current, readingLog, alerts, history);
    if readingLog.Some? && (forall a :: a in alerts ==> a.id != readingLog.value.id) {
      MergedReadingLog(current, readingLog.value, alerts, history);
    }
  }

  /** The published banner never carries a dismissed id when the current one did not. */
  lemma ReadingKeepsBannerUndismissed(view: View, previous: Option<PreviousReading>, dismissed: set<BannerId>,
                                      payloads: Payloads, now: Timestamp)
    requires view.banner.None? || view.banner.value.id !in dismissed
    ensures var v := ApplyReadingUpdate(view, previous, dismissed, payloads, now).0;
      v.banner.None? || v.banner.value.id !in dismissed
  {
    if payloads.reading.Some? {
      var reading := payloads.reading.value;
      var capturedAt := reading.capturedAt.GetOr(now);
      DismissedCandidateStaysDown(view.banner, CandidateBanner(payloads.messages.GetOr([]), capturedAt), dismissed);
    }
  }

  /** Alert messages raise a banner showing the first message unless its id was dismissed. */
  lemma MessagesRaiseBanner(view: View, previous: Option<PreviousReading>, dismissed: set<BannerId>,
                            payloads: Payloads, now: Timestamp)
    requires payloads.reading.Some?
    ensures var v := ApplyReadingUpdate(view, previous, dismissed, payloads, now).0;
      var messages := payloads.messages.GetOr([]);
      var capturedAt := payloads.reading.value.capturedAt.GetOr(now);
      var candidate := CandidateBanner(messages, capturedAt);
      && (|messages| == 0 ==> v.banner.None?)
      && (|messages| > 0 && candidate.value.id !in dismissed ==>
            v.banner.Some? && v.banner.value.id == candidate.value.id)
      && (|messages| > 0 && candidate.value.id !in dismissed && !(view.banner.Some? && view.banner.value.id == candidate.value.id) ==>
            v.banner == candidate && v.banner.value.message == messages[0])
  {
  }

  // ---------------------------------------------------------------------
  // setActiveDevice in live mode
  // ---------------------------------------------------------------------

  /**
   * Selecting an unknown or already active device changes nothing;
   * otherwise only the active flags, the active id and the summary's
   * device id change.
   */
  lemma SelectLiveDeviceRules(v: View, id: string)
    ensures var r := SelectLiveDevice(v, id);
      && (FindDevice(v.data.devices, id).None? || v.data.activeDeviceId == Some(id) ==> r == v)
      && (FindDevice(v.data.devices, id).Some? && v.data.activeDeviceId != Some(id) ==>
            && |r.data.devices| == |v.data.devices|
            && (forall i :: 0 <= i < |r.data.devices| ==>
                  && (r.data.devices[i].isActive <==> r.data.devices[i].id == id)
                  && r.data.devices[i].(isActive := v.data.devices[i].isActive) == v.data.devices[i])
            && r.data.activeDeviceId == Some(id)
            && r.data.summary == v.data.summary.(deviceId := Some(id))
            && r == v.(data := v.data.(devices := r.data.devices, activeDeviceId := Some(id),
                                       summary := v.data.summary.(deviceId := Some(id)))))
  {
  }

  /** Selecting the same device twice is the same as selecting it once. */
  lemma SelectLiveDeviceIdempotent(v: View, id: string)
    ensures SelectLiveDevice(SelectLiveDevice(v, id), id) == SelectLiveDevice(v, id)
  {
  }

  /** After a reading, the live feed's only device is already active, so any selection is a no-op. */
  lemma SelectAfterReadingIsNoop(view: View, previous: Option<PreviousReading>, dismissed: set<BannerId>,
                                 payloads: Payloads, now: Timestamp, id: string)
    requires payloads.reading.Some?
    ensures var v := ApplyReadingUpdate(view, previous, dismissed, payloads, now).0;
      SelectLiveDevice(v, id) == v
  {
    var v := ApplyReadingUpdate(view, previous, dismissed, payloads, now).0;
    if id != BASE_DEVICE_ID {
      assert FindDevice(v.data.devices, id).None?;
    }
  }
}

=== FILE: mock_properties.dfy ===
/**
 * What the simulated source promises: readings stay within their walk
 * bounds, exactly one device is active after every tick, the history,
 * alert and log buffers stay bounded with new entries in front, the
 * classifier's breach and stable rules, and `setActiveDevice`'s no-op and
 * isolation rules.
 */
module MockProperties {
  import opened Common
  import opened Model
  import opened MockTelemetry

  // ---------------------------------------------------------------------
  // Readings stay in range
  // ---------------------------------------------------------------------

  /** A simulated device's readings: present, on their rounding grid and inside the walk bounds. */
  ghost predicate ReadingsInRange(d: Device) {
    && d.temperature.Some? && TEMPERATURE_MIN <= d.temperature.value <= TEMPERATURE_MAX
    && d.temperature.value % 100 == 0
    && d.humidity.Some? && HUMIDITY_FLOOR <= d.humidity.value <= HUMIDITY_CEILING
    && d.humidity.value % 100 == 0
    && d.battery.Some? && BATTERY_DRAIN_FLOOR <= d.battery.value <= BATTERY_MAX
    && d.battery.value % 1000 == 0
  }

  /** One step of the walk lands every reading inside its clamp range, on its grid. */
  lemma WalkStaysInRange(d: Device, s: Step, activeId: Option<string>, now: Timestamp)
    ensures ReadingsInRange(Walk(d, s, activeId, now))
    ensures Walk(d, s, activeId, now).id == d.id
  {
    RoundClampedStaysInRange(Num(d.temperature) + s.temperature, TEMPERATURE_MIN, TEMPERATURE_MAX, TENTHS);
    RoundClampedStaysInRange(Num(d.humidity) + s.humidity, HUMIDITY_FLOOR, HUMIDITY_CEILING, TENTHS);
    var b := DrainedBattery(Num(d.battery), s);
    assert Clamp(b, BATTERY_DRAIN_FLOOR, BATTERY_MAX) == b;
    RoundClampedStaysInRange(b, BATTERY_DRAIN_FLOOR, BATTERY_MAX, UNITS);
  }

  /** After a tick every temperature is in [18, 32], every humidity in [40, 80], every battery in [5, 100]. */
  lemma TickKeepsReadingsInRange(svc: Service, now: Timestamp, steps: seq<Step>)
    requires |steps| == |svc.state.devices|
    requires forall i :: 0 <= i < |steps| ==> StepInRange(steps[i])
    ensures forall d :: d in Tick(svc, now, steps).state.devices ==> ReadingsInRange(d)
  {
    var prev := svc.state;
    var walked := WalkAll(prev.devices, steps, prev.activeDeviceId, now);
    forall i | 0 <= i < |walked| ensures ReadingsInRange(walked[i]) {
      WalkStaysInRange(prev.devices[i], steps[i], prev.activeDeviceId, now);
    }
  }

  // ---------------------------------------------------------------------
  // One active device
  // ---------------------------------------------------------------------

  /** `find` by id only looks at ids: two lists with the same ids give the same answer. */
  lemma {:induction false} FindDeviceByIds(a: seq<Device>, b: seq<Device>, id: string)
    requires |a| == |b|
    requires forall i :: 0 <= i < |a| ==> a[i].id == b[i].id
    ensures FindDevice(a, id) == FindDevice(b, id)
  {
    if |a| > 0 && a[0].id != id {
      FindDeviceByIds(a[1..], b[1..], id);
    }
  }

  /** Walking never changes ids. */
  lemma WalkKeepsIds(ds: seq<Device>, steps: seq<Step>, activeId: Option<string>, now: Timestamp)
    requires |steps| == |ds|
    ensures forall i :: 0 <= i < |ds| ==> WalkAll(ds, steps, activeId, now)[i].id == ds[i].id
  {
  }

  /** With distinct ids, `find` returns the one position that carries the id. */
  lemma FindDeviceUnique(ds: seq<Device>, id: string)
    requires DistinctIds(ds)
    ensures forall i :: 0 <= i < |ds| && ds[i].id == id ==> FindDevice(ds, id) == Some(i)
  {
  }

  /** The flags the walk leaves: active exactly when carrying the active id, and then online. */
  ghost predicate FlaggedBy(walked: seq<Device>, activeId: Option<string>) {
    forall i :: 0 <= i < |walked| ==>
      (walked[i].isActive <==> activeId == Some(walked[i].id)) &&
      (walked[i].isActive ==> walked[i].status == Online)
  }

  /** Promoting the chosen device leaves it the only active one. */
  lemma PromotionLeavesOneActive(walked: seq<Device>, activeId: Option<string>)
    requires |walked| > 0 && DistinctIds(walked) && FlaggedBy(walked, activeId)
    ensures var a := NextActive(walked, activeId);
      var ds := WithActive(walked, a);
      var k := ActiveOrFirst(walked, activeId).value;
      && OnlyActiveAt(ds, k) && ds[k] == a.value && a.value.id == walked[k].id && a.value.status == Online
  {
    var a := NextActive(walked, activeId);
    var ds := WithActive(walked, a);
    var k := ActiveOrFirst(walked, activeId).value;
    if activeId.Some? {
      FindDeviceUnique(walked, activeId.value);
    }
    forall i | 0 <= i < |ds| && i != k ensures !ds[i].isActive {
      assert walked[i].id != walked[k].id;
      assert ds[i] == walked[i];
    }
  }

  /**
   * After a tick on a non-empty fleet with distinct ids exactly one device is
   * active; it carries the new active id and is online.  The active id is
   * kept when some device has it, and otherwise falls back to the first
   * device.  Ids and their order are unchanged.
   */
  lemma TickKeepsOneActive(svc: Service, now: Timestamp, steps: seq<Step>)
    requires |steps| == |svc.state.devices|
    requires forall i :: 0 <= i < |steps| ==> StepInRange(steps[i])
    requires |svc.state.devices| > 0 && DistinctIds(svc.state.devices)
    ensures var r := Tick(svc, now, steps).state;
      && |r.devices| == |svc.state.devices|
      && (forall i :: 0 <= i < |r.devices| ==> r.devices[i].id == svc.state.devices[i].id)
      && r.activeDeviceId.Some?
      && exists k :: OnlyActiveAt(r.devices, k) && r.devices[k].id == r.activeDeviceId.value
                     && r.devices[k].status == Online
    ensures var prev := svc.state;
      var known := prev.activeDeviceId.Some? && FindDevice(prev.devices, prev.activeDeviceId.value).Some?;
      && (known ==> Tick(svc, now, steps).state.activeDeviceId == prev.activeDeviceId)
      && (!known ==> Tick(svc, now, steps).state.activeDeviceId == Some(prev.devices[0].id))
  {
    var prev := svc.state;
    var walked := WalkAll(prev.devices, steps, prev.activeDeviceId, now);
    WalkKeepsIds(prev.devices, steps, prev.activeDeviceId, now);
    if prev.activeDeviceId.Some? {
      FindDeviceByIds(walked, prev.devices, prev.activeDeviceId.value);
    }
    assert DistinctIds(walked) by {
      forall i, j | 0 <= i < j < |walked| ensures walked[i].id != walked[j].id {
        assert prev.devices[i].id != prev.devices[j].id;
      }
    }
    PromotionLeavesOneActive(walked, prev.activeDeviceId);
    var a := NextActive(walked, prev.activeDeviceId);
    var r := Tick(svc, now, steps).state;
    assert r.devices == WithActive(walked, a);
    assert r.activeDeviceId == Some(a.value.id);
    var k := ActiveOrFirst(walked, prev.activeDeviceId).value;
    assert OnlyActiveAt(r.devices, k);
  }

  // ---------------------------------------------------------------------
  // History, summary and trend of a tick
  // ---------------------------------------------------------------------

  /**
   * A tick puts one new history entry per device, in device order, in front
   * of the previous history and only then cuts the list to 60: the older
   * entries that survive follow in their old order.
   */
  lemma TickPrependsHistory(svc: Service, now: Timestamp, steps: seq<Step>)
    requires |steps| == |svc.state.devices|
    requires forall i :: 0 <= i < |steps| ==> StepInRange(steps[i])
    ensures var r := Tick(svc, now, steps);
      var n := |svc.state.devices|;
      var h := r.state.history;
      && r.readingCounter == svc.readingCounter + n
      && |h| == Min(HISTORY_LIMIT, n + |svc.state.history|)
      && (forall i :: 0 <= i < |h| && i < n ==>
            && h[i].id == ReadingNo(svc.readingCounter + i + 1)
            && h[i].deviceId == r.state.devices[i].id
            && h[i].temperature == r.state.devices[i].temperature
            && h[i].humidity == r.state.devices[i].humidity
            && h[i].timestamp == now)
      && (forall j :: n <= j < |h| ==> h[j] == svc.state.history[j - n])
  {
    var r := Tick(svc, now, steps);
    var entries := ReadingEntries(r.state.devices, svc.readingCounter, now);
    assert r.state.history == Take(entries + svc.state.history, HISTORY_LIMIT);
    var h := r.state.history;
    forall j | |svc.state.devices| <= j < |h| ensures h[j] == svc.state.history[j - |svc.state.devices|] {
      assert h[j] == (entries + svc.state.history)[j];
    }
  }

  /**
   * The summary copies the readings and id of the device the tick leaves
   * active, and the trend is that device's reading minus the previous
   * summary's: rounding it to one decimal loses nothing, because both sides
   * already sit on the tenths grid.
   */
  lemma TickSummaryFollowsActive(svc: Service, now: Timestamp, steps: seq<Step>)
    requires |steps| == |svc.state.devices|
    requires forall i :: 0 <= i < |steps| ==> StepInRange(steps[i])
    requires |svc.state.devices| > 0
    requires Num(svc.state.summary.temperature) % 100 == 0 && Num(svc.state.summary.humidity) % 100 == 0
    ensures var r := Tick(svc, now, steps).state;
      && r.activeDeviceId.Some? && r.summary.deviceId == r.activeDeviceId
      && (forall k :: 0 <= k < |r.devices| && r.devices[k].id == r.activeDeviceId.value ==>
            && r.summary.temperature == r.devices[k].temperature
            && r.summary.humidity == r.devices[k].humidity)
      && r.summary.lastUpdated == Some(now) && r.lastUpdated == Some(now)
      && r.summary.temperatureTrend == Num(r.summary.temperature) - Num(svc.state.summary.temperature)
      && r.summary.humidityTrend == Num(r.summary.humidity) - Num(svc.state.summary.humidity)
      && r.summary.temperatureTrend % 100 == 0 && r.summary.humidityTrend % 100 == 0
  {
    var prev := svc.state;
    var walked := WalkAll(prev.devices, steps, prev.activeDeviceId, now);
    var a := NextActive(walked, prev.activeDeviceId).value;
    var k := ActiveOrFirst(walked, prev.activeDeviceId).value;
    WalkStaysInRange(prev.devices[k], steps[k], prev.activeDeviceId, now);
    assert ReadingsInRange(a);
    RoundHalfUpOnGrid(Num(a.temperature) - Num(prev.summary.temperature), TENTHS);
    RoundHalfUpOnGrid(Num(a.humidity) - Num(prev.summary.humidity), TENTHS);
  }

  // ---------------------------------------------------------------------
  // Alert classifier
  // ---------------------------------------------------------------------

  /** The breach alerts come out newest first: position i holds the condition pushed last-but-i. */
  lemma {:induction false} UnshiftedReverses(conditions: seq<Condition>, counter: nat, d: Device, timestamp: Timestamp)
    ensures forall i :: 0 <= i < |conditions| ==>
        Unshifted(conditions, counter, d, timestamp)[i] == BreachAlert(conditions[|conditions| - 1 - i], counter + |conditions| - i, d, timestamp)
  {
    if |conditions| > 0 {
      UnshiftedReverses(conditions[1..], counter + 1, d, timestamp);
      var u := Unshifted(conditions, counter, d, timestamp);
      var rest := Unshifted(conditions[1..], counter + 1, d, timestamp);
      assert u == rest + [BreachAlert(conditions[0], counter + 1, d, timestamp)];
      forall i | 0 <= i < |u|
        ensures u[i] == BreachAlert(conditions[|conditions| - 1 - i], counter + |conditions| - i, d, timestamp)
      {
        if i < |rest| {
          assert u[i] == rest[i];
          assert rest[i] == BreachAlert(conditions[1..][|conditions| - 2 - i], counter + 1 + (|conditions| - 1) - i, d, timestamp);
          assert conditions[1..][|conditions[1..]| - 1 - i] == conditions[|conditions| - 1 - i];
        } else {
          assert u[i] == BreachAlert(conditions[0], counter + 1, d, timestamp);
        }
      }
    }
  }

  /** At most one humidity and at most one temperature condition; which one follows the thresholds. */
  lemma ConditionsFollowThresholds(d: Device)
    ensures var c := Conditions(d);
      && |c| <= 2
      && (HighHumidity in c <==> Num(d.humidity) > HUMIDITY_MAX)
      && (LowHumidity in c <==> Num(d.humidity) < HUMIDITY_MIN)
      && (HighTemperature in c <==> Num(d.temperature) > TEMPERATURE_MAX - 1000)
      && (LowTemperature in c <==> Num(d.temperature) < TEMPERATURE_MIN + 1000)
      && (forall i, j :: 0 <= i < j < |c| ==> IsHumidity(c[i]) && !IsHumidity(c[j]))
  {
  }

  /**
   * New alerts go in front, the previous alerts follow in their old order,
   * and the list is cut to 6.  At most two alerts are new, their ids are the
   * next counter values, newest first.  Without an active device nothing is
   * added.
   */
  lemma BuildAlertsPrepends(previous: seq<Alert>, active: Option<Device>, timestamp: Timestamp,
                            temperatureTrend: Milli, humidityTrend: Milli, counter: nat)
    ensures var (r, next) := BuildAlerts(previous, active, timestamp, temperatureTrend, humidityTrend, counter);
      && (active.None? ==> next == counter)
      && |r| == Min(ALERT_LIMIT, next - counter + |previous|)
    ensures var (r, next) := BuildAlerts(previous, active, timestamp, temperatureTrend, humidityTrend, counter);
      forall i :: 0 <= i < next - counter && i < |r| ==> r[i].id == AlertNo(next - i) && r[i].timestamp == timestamp
    ensures var (r, next) := BuildAlerts(previous, active, timestamp, temperatureTrend, humidityTrend, counter);
      forall j :: next - counter <= j < |r| ==> r[j] == previous[j - (next - counter)]
  {
    var result := BuildAlerts(previous, active, timestamp, temperatureTrend, humidityTrend, counter);
    if active.None? {
      assert result == (Take(previous, ALERT_LIMIT), counter);
    } else {
      var d := active.value;
      var conditions := Conditions(d);
      if !(WithinEpsilon(temperatureTrend, humidityTrend) && |conditions| == 0) {
        assert result == (Take(Unshifted(conditions, counter, d, timestamp) + previous, ALERT_LIMIT),
                          counter + |conditions|);
        UnshiftedThenCut(conditions, counter, d, timestamp, previous);
      } else if |previous| == 0 || previous[0].severity != SUCCESS {
        assert result == (Take([StableAlert(counter + 1, d, timestamp)] + previous, ALERT_LIMIT), counter + 1);
        PrependThenCut([StableAlert(counter + 1, d, timestamp)], previous, ALERT_LIMIT);
      } else {
        assert result == (Take(previous, ALERT_LIMIT), counter);
      }
    }
  }

  /** The breach alerts, numbered down from the last counter value, ahead of the previous alerts, cut to 6. */
  lemma UnshiftedThenCut(conditions: seq<Condition>, counter: nat, d: Device, timestamp: Timestamp, previous: seq<Alert>)
    ensures var r := Take(Unshifted(conditions, counter, d, timestamp) + previous, ALERT_LIMIT);
      && |r| == Min(ALERT_LIMIT, |conditions| + |previous|)
      && (forall i :: 0 <= i < |conditions| && i < |r| ==>
            r[i].id == AlertNo(counter + |conditions| - i) && r[i].timestamp == timestamp)
      && (forall j :: |conditions| <= j < |r| ==> r[j] == previous[j - |conditions|])
  {
    UnshiftedReverses(conditions, counter, d, timestamp);
    PrependThenCut(Unshifted(conditions, counter, d, timestamp), previous, ALERT_LIMIT);
  }

  /** Putting `front` ahead of `rest` and cutting to `n` keeps `front` first and `rest` in order. */
  lemma PrependThenCut<T>(front: seq<T>, rest: seq<T>, n: nat)
    ensures var r := Take(front + rest, n);
      && |r| == Min(n, |front| + |rest|)
      && (forall i :: 0 <= i < |front| && i < |r| ==> r[i] == front[i])
      && (forall j :: |front| <= j < |r| ==> r[j] == rest[j - |front|])
  {
  }

  /**
   * When a threshold is breached every breach becomes its own warning in
   * front of the list: the temperature alert, pushed last, comes first.
   */
  lemma BreachesBecomeWarnings(previous: seq<Alert>, d: Device, timestamp: Timestamp,
                               temperatureTrend: Milli, humidityTrend: Milli, counter: nat)
    requires |Conditions(d)| > 0
    ensures var (r, next) := BuildAlerts(previous, Some(d), timestamp, temperatureTrend, humidityTrend, counter);
      next == counter + |Conditions(d)| && |r| >= |Conditions(d)|
    ensures var (r, next) := BuildAlerts(previous, Some(d), timestamp, temperatureTrend, humidityTrend, counter);
      var c := Conditions(d);
      forall i :: 0 <= i < |c| ==>
        r[i].severity == WARNING && r[i].title == Detected(c[|c| - 1 - i]) && r[i].deviceId == d.id
    ensures var (r, next) := BuildAlerts(previous, Some(d), timestamp, temperatureTrend, humidityTrend, counter);
      TemperatureCondition(d).Some? ==> r[0].title == Detected(TemperatureCondition(d).value)
    ensures var (r, next) := BuildAlerts(previous, Some(d), timestamp, temperatureTrend, humidityTrend, counter);
      HumidityCondition(d).Some? ==> r[|Conditions(d)| - 1].title == Detected(HumidityCondition(d).value)
  {
    var c := Conditions(d);
    ConditionsFollowThresholds(d);
    UnshiftedReverses(c, counter, d, timestamp);
    var u := Unshifted(c, counter, d, timestamp);
    var (r, next) := BuildAlerts(previous, Some(d), timestamp, temperatureTrend, humidityTrend, counter);
    assert r == Take(u + previous, ALERT_LIMIT);
    forall i | 0 <= i < |c| ensures r[i] == u[i] {
      assert r[i] == (u + previous)[i];
    }
    var hc, tc := AsSeq(HumidityCondition(d)), AsSeq(TemperatureCondition(d));
    assert c == hc + tc;
    if TemperatureCondition(d).Some? {
      assert c[|c| - 1] == TemperatureCondition(d).value;
    }
    if HumidityCondition(d).Some? {
      assert c[0] == HumidityCondition(d).value;
    }
  }

  /**
   * With no breach and both trends within epsilon, one success "Conditions
   * stable" alert is prepended unless the head alert already has success
   * severity; in that case the list is only truncated.
   */
  lemma StableAlertOnlyAfterNonSuccess(previous: seq<Alert>, d: Device, timestamp: Timestamp,
                                       temperatureTrend: Milli, humidityTrend: Milli, counter: nat)
    requires |Conditions(d)| == 0 && WithinEpsilon(temperatureTrend, humidityTrend)
    ensures var (r, next) := BuildAlerts(previous, Some(d), timestamp, temperatureTrend, humidityTrend, counter);
      if |previous| == 0 || previous[0].severity != SUCCESS then
        && next == counter + 1 && |r| > 0
        && r[0].severity == SUCCESS && r[0].title == ConditionsStable && r[0].id == AlertNo(next)
        && r[1..] == Take(previous, ALERT_LIMIT - 1)
      else
        next == counter && r == Take(previous, ALERT_LIMIT)
  {
    var (r, next) := BuildAlerts(previous, Some(d), timestamp, temperatureTrend, humidityTrend, counter);
    if |previous| == 0 || previous[0].severity != SUCCESS {
      var full := [StableAlert(counter + 1, d, timestamp)] + previous;
      assert r == Take(full, ALERT_LIMIT);
      var t := Take(previous, ALERT_LIMIT - 1);
      assert |r[1..]| == |t|;
      forall j | 0 <= j < |t| ensures r[1..][j] == t[j] {
        assert r[j + 1] == full[j + 1];
      }
    }
  }

  /** With no breach but a trend outside epsilon, no alert is added. */
  lemma DriftWithoutBreachAddsNothing(previous: seq<Alert>, d: Device, timestamp: Timestamp,
                                      temperatureTrend: Milli, humidityTrend: Milli, counter: nat)
    requires |Conditions(d)| == 0 && !WithinEpsilon(temperatureTrend, humidityTrend)
    ensures BuildAlerts(previous, Some(d), timestamp, temperatureTrend, humidityTrend, counter)
         == (Take(previous, ALERT_LIMIT), counter)
  {
    assert Unshifted(Conditions(d), counter, d, timestamp) + previous == previous;
  }

  /** Two stable rounds in a row add at most one alert: the second finds a success head and adds none. */
  lemma TwoStableRoundsAddOneAlert(previous: seq<Alert>, d1: Device, d2: Device, t1: Timestamp, t2: Timestamp,
                                   tt1: Milli, ht1: Milli, tt2: Milli, ht2: Milli, counter: nat)
    requires |Conditions(d1)| == 0 && WithinEpsilon(tt1, ht1)
    requires |Conditions(d2)| == 0 && WithinEpsilon(tt2, ht2)
    ensures var (a1, c1) := BuildAlerts(previous, Some(d1), t1, tt1, ht1, counter);
      var (a2, c2) := BuildAlerts(a1, Some(d2), t2, tt2, ht2, c1);
      a2 == a1 && c2 == c1 && c2 <= counter + 1
  {
    StableAlertOnlyAfterNonSuccess(previous, d1, t1, tt1, ht1, counter);
    var (a1, c1) := BuildAlerts(previous, Some(d1), t1, tt1, ht1, counter);
    assert |a1| > 0 && a1[0].severity == SUCCESS;
    StableAlertOnlyAfterNonSuccess(a1, d2, t2, tt2, ht2, c1);
  }

  /**
   * The baseline's head alert already has success severity, so the first
   * stable round after start-up adds no "Conditions stable" alert.
   */
  lemma BaselineSuppressesFirstStableAlert(now: Timestamp, d: Device, timestamp: Timestamp,
                                           temperatureTrend: Milli, humidityTrend: Milli)
    requires |Conditions(d)| == 0 && WithinEpsilon(temperatureTrend, humidityTrend)
    ensures var svc := Create(now);
      BuildAlerts(svc.state.alerts, Some(d), timestamp, temperatureTrend, humidityTrend, svc.alertCounter)
        == (svc.state.alerts, svc.alertCounter)
  {
    var svc := Create(now);
    StableAlertOnlyAfterNonSuccess(svc.state.alerts, d, timestamp, temperatureTrend, humidityTrend, svc.alertCounter);
  }

  // ---------------------------------------------------------------------
  // Log ring
  // ---------------------------------------------------------------------

  /**
   * `buildLogs` always puts one metric log in front, and an alert log in
   * front of that exactly when the head alert changed; the previous logs
   * follow in order and the ring is cut to 20.  Without an active device
   * it only truncates.
   */
  lemma BuildLogsPrepends(previous: seq<LogEntry>, active: Option<Device>, timestamp: Timestamp,
                          hasNewAlert: bool, counter: nat)
    ensures var (r, next) := BuildLogs(previous, active, timestamp, hasNewAlert, counter);
      var k := if active.None? then 0 else if hasNewAlert then 2 else 1;
      && next == counter + k
      && |r| == Min(LOG_LIMIT, k + |previous|)
      && (active.Some? ==> r[k - 1].category == MetricLog && r[k - 1].id == LogNo(counter + 1))
      && (active.Some? && hasNewAlert ==> r[0].category == AlertLog && r[0].id == LogNo(counter + 2))
      && (forall j :: k <= j < |r| ==> r[j] == previous[j - k])
  {
    var (r, next) := BuildLogs(previous, active, timestamp, hasNewAlert, counter);
    if active.Some? {
      var d := active.value;
      var metric := LogEntry(LogNo(counter + 1), timestamp, d.id, MetricLog, None, d.temperature, d.humidity);
      var alert := LogEntry(LogNo(counter + 2), timestamp, d.id, AlertLog, None, None, None);
      var added := if hasNewAlert then [alert, metric] else [metric];
      assert r == Take(added + previous, LOG_LIMIT);
      forall j | |added| <= j < |r| ensures r[j] == previous[j - |added|] {
        assert r[j] == (added + previous)[j];
      }
    }
  }

  /** On a tick, the log ring gains an alert log exactly when the head alert id changed. */
  lemma TickLogsAlertIffHeadChanged(svc: Service, now: Timestamp, steps: seq<Step>)
    requires |steps| == |svc.state.devices|
    requires forall i :: 0 <= i < |steps| ==> StepInRange(steps[i])
    requires |svc.state.devices| > 0
    ensures var r := Tick(svc, now, steps);
      && |r.state.logs| > 0
      && (r.state.logs[0].category == AlertLog <==> HeadId(r.state.alerts) != HeadId(svc.state.alerts))
      && r.logCounter == svc.logCounter + (if HeadId(r.state.alerts) != HeadId(svc.state.alerts) then 2 else 1)
  {
    var prev := svc.state;
    var walked := WalkAll(prev.devices, steps, prev.activeDeviceId, now);
    var active := NextActive(walked, prev.activeDeviceId);
    var r := Tick(svc, now, steps);
    var hasNewAlert := HeadId(r.state.alerts) != HeadId(prev.alerts);
    assert (r.state.logs, r.logCounter) == BuildLogs(prev.logs, active, now, hasNewAlert, svc.logCounter);
    BuildLogsPrepends(prev.logs, active, now, hasNewAlert, svc.logCounter);
  }

  // ---------------------------------------------------------------------
  // Battery
  // ---------------------------------------------------------------------

  /**
   * The per-tick decay (under 0.3) is erased by rounding to a whole percent,
   * and the extra drain only applies below 15: a battery at a whole
   * percentage of 16 or more never changes.
   */
  lemma BatteryHeldFromSixteen(d: Device, s: Step, activeId: Option<string>, now: Timestamp)
    requires StepInRange(s)
    requires d.battery.Some? && d.battery.value % 1000 == 0 && 16000 <= d.battery.value <= BATTERY_MAX
    ensures Walk(d, s, activeId, now).battery == d.battery
  {
    var b := d.battery.value;
    var x := DrainedBattery(b, s);
    assert x == b - s.battery;
    GridGap(RoundHalfUp(x, UNITS), b, UNITS);
  }

  /**
   * However low the battery was, the walk first lifts it to 10 and the extra
   * drain takes off less than 1.5, so a tick never leaves a battery below 9
   * and the drain floor of 5 is never reached.
   */
  lemma BatteryNeverBelowNine(d: Device, s: Step, activeId: Option<string>, now: Timestamp)
    requires StepInRange(s)
    ensures var b := Walk(d, s, activeId, now).battery;
      b.Some? && 9000 <= b.value <= BATTERY_MAX
  {
    var x := DrainedBattery(Num(d.battery), s);
    assert 8500 < x <= BATTERY_MAX;
    RoundHalfUpMonotone(x, BATTERY_MAX, UNITS);
    RoundHalfUpOnGrid(BATTERY_MAX, UNITS);
  }

  /** A tick keeps every battery that sits on a whole percentage of 16 or more. */
  lemma TickHoldsHighBatteries(svc: Service, now: Timestamp, steps: seq<Step>)
    requires |steps| == |svc.state.devices|
    requires forall i :: 0 <= i < |steps| ==> StepInRange(steps[i])
    requires DistinctIds(svc.state.devices)
    ensures var r := Tick(svc, now, steps).state;
      forall i :: 0 <= i < |svc.state.devices| && svc.state.devices[i].battery.Some?
                  && svc.state.devices[i].battery.value % 1000 == 0
                  && 16000 <= svc.state.devices[i].battery.value <= BATTERY_MAX
                  ==> r.devices[i].battery == svc.state.devices[i].battery
  {
    var prev := svc.state;
    var walked := WalkAll(prev.devices, steps, prev.activeDeviceId, now);
    var a := NextActive(walked, prev.activeDeviceId);
    forall i | 0 <= i < |prev.devices| && prev.devices[i].battery.Some?
               && prev.devices[i].battery.value % 1000 == 0
               && 16000 <= prev.devices[i].battery.value <= BATTERY_MAX
      ensures WithActive(walked, a)[i].battery == prev.devices[i].battery
    {
      BatteryHeldFromSixteen(prev.devices[i], steps[i], prev.activeDeviceId, now);
      if a.Some? && walked[i].id == a.value.id {
        var k := ActiveOrFirst(walked, prev.activeDeviceId).value;
        assert prev.devices[k].id == walked[k].id == a.value.id;
        assert k == i;
      }
    }
  }

  // ---------------------------------------------------------------------
  // setActiveDevice
  // ---------------------------------------------------------------------

  /** An empty, unknown or already active id is ignored and nothing is emitted; any other id emits. */
  lemma SetActiveDeviceIgnores(svc: Service, id: string, now: Timestamp)
    ensures var ignored := id == "" || FindDevice(svc.state.devices, id).None? || svc.state.activeDeviceId == Some(id);
      && (SetActiveDevice(svc, id, now).1 <==> !ignored)
      && (ignored ==> SetActiveDevice(svc, id, now).0 == svc)
  {
  }

  /**
   * Selecting a known device flags only that device active and online and
   * changes no other field of any device; the summary takes its readings
   * with zero trends and its id; alerts, logs, history and counters stay.
   */
  lemma SetActiveDeviceSelectsOnly(svc: Service, id: string, now: Timestamp)
    requires id != "" && FindDevice(svc.state.devices, id).Some? && svc.state.activeDeviceId != Some(id)
    ensures var r := SetActiveDevice(svc, id, now).0;
      var prev := svc.state;
      var s := r.state;
      var k := FindDevice(prev.devices, id).value;
      && |s.devices| == |prev.devices|
      && (forall i :: 0 <= i < |s.devices| ==>
            && (s.devices[i].isActive <==> s.devices[i].id == id)
            && (s.devices[i].id == id ==> s.devices[i].status == Online)
            && (s.devices[i].id != id ==> s.devices[i].status == prev.devices[i].status)
            && s.devices[i].(isActive := prev.devices[i].isActive, status := prev.devices[i].status) == prev.devices[i])
      && s.activeDeviceId == Some(id) && s.summary.deviceId == Some(id)
      && s.summary.temperature == prev.devices[k].temperature && s.summary.humidity == prev.devices[k].humidity
      && s.summary.temperatureTrend == 0 && s.summary.humidityTrend == 0
      && s.summary.lastUpdated == Some(prev.devices[k].lastUpdated) && s.lastUpdated == Some(now)
      && s.alerts == prev.alerts && s.logs == prev.logs && s.history == prev.history
      && r.alertCounter == svc.alertCounter && r.logCounter == svc.logCounter
      && r.readingCounter == svc.readingCounter
    ensures DistinctIds(svc.state.devices) ==>
      OnlyActiveAt(SetActiveDevice(svc, id, now).0.state.devices, FindDevice(svc.state.devices, id).value)
  {
    var k := FindDevice(svc.state.devices, id).value;
    if DistinctIds(svc.state.devices) {
      FindDeviceUnique(svc.state.devices, id);
    }
  }

  /** Selecting the same device twice emits once: the second call is ignored. */
  lemma SetActiveDeviceIdempotent(svc: Service, id: string, now: Timestamp, later: Timestamp)
    ensures var once := SetActiveDevice(svc, id, now).0;
      SetActiveDevice(once, id, later) == (once, false)
  {
  }

  // ---------------------------------------------------------------------
  // The service invariant
  // ---------------------------------------------------------------------

  /**
   * What the simulated source keeps true between calls: a non-empty fleet
   * with distinct ids, exactly one active and online device which the active
   * id and the summary point at, readings in range and bounded buffers.
   */
  ghost predicate MockValid(svc: Service) {
    var s := svc.state;
    && |s.devices| > 0 && DistinctIds(s.devices)
    && s.activeDeviceId.Some? && s.summary.deviceId == s.activeDeviceId
    && (exists k :: OnlyActiveAt(s.devices, k) && s.devices[k].id == s.activeDeviceId.value
                    && s.devices[k].status == Online
                    && s.summary.temperature == s.devices[k].temperature
                    && s.summary.humidity == s.devices[k].humidity)
    && (forall i :: 0 <= i < |s.devices| ==> ReadingsInRange(s.devices[i]))
    && |s.history| <= HISTORY_LIMIT && |s.alerts| <= ALERT_LIMIT && |s.logs| <= LOG_LIMIT
  }

  /** The baseline fleet satisfies the invariant, with every battery at 16 or more. */
  lemma CreateIsValid(now: Timestamp)
    ensures MockValid(Create(now))
    ensures forall d :: d in Create(now).state.devices ==> d.battery.Some? && 16000 <= d.battery.value
  {
    var s := Create(now).state;
    assert s.devices[0].temperature == Some(25000) && s.devices[0].humidity == Some(60000);
    assert s.devices[1].temperature == Some(23000) && s.devices[1].humidity == Some(58000);
    assert s.devices[2].temperature == Some(28000) && s.devices[2].humidity == Some(65000);
    assert s.devices[0].battery == Some(84000);
    assert s.devices[1].battery == Some(62000);
    assert s.devices[2].battery == Some(47000);
    assert OnlyActiveAt(s.devices, 0);
  }

  /** A tick preserves the invariant. */
  lemma TickPreservesValid(svc: Service, now: Timestamp, steps: seq<Step>)
    requires MockValid(svc)
    requires |steps| == |svc.state.devices|
    requires forall i :: 0 <= i < |steps| ==> StepInRange(steps[i])
    ensures MockValid(Tick(svc, now, steps))
  {
    var prev := svc.state;
    var k0 :| OnlyActiveAt(prev.devices, k0) && prev.devices[k0].id == prev.activeDeviceId.value
              && prev.devices[k0].status == Online
              && prev.summary.temperature == prev.devices[k0].temperature
              && prev.summary.humidity == prev.devices[k0].humidity;
    assert ReadingsInRange(prev.devices[k0]);
    TickKeepsOneActive(svc, now, steps);
    TickSummaryFollowsActive(svc, now, steps);
    TickKeepsReadingsInRange(svc, now, steps);
    var s := Tick(svc, now, steps).state;
    assert DistinctIds(s.devices) by {
      forall i, j | 0 <= i < j < |s.devices| ensures s.devices[i].id != s.devices[j].id {
        assert prev.devices[i].id != prev.devices[j].id;
      }
    }
    forall i | 0 <= i < |s.devices| ensures ReadingsInRange(s.devices[i]) {
      assert s.devices[i] in s.devices;
    }
  }

  /** Selecting a device preserves the invariant. */
  lemma SetActiveDevicePreservesValid(svc: Service, id: string, now: Timestamp)
    requires MockValid(svc)
    ensures MockValid(SetActiveDevice(svc, id, now).0)
  {
    if id != "" && FindDevice(svc.state.devices, id).Some? && svc.state.activeDeviceId != Some(id) {
      SetActiveDeviceSelectsOnly(svc, id, now);
      var prev := svc.state;
      var s := SetActiveDevice(svc, id, now).0.state;
      var k := FindDevice(prev.devices, id).value;
      assert s.devices[k].temperature == prev.devices[k].temperature;
      forall i | 0 <= i < |s.devices| ensures ReadingsInRange(s.devices[i]) {
        assert ReadingsInRange(prev.devices[i]);
      }
      assert DistinctIds(s.devices) by {
        forall i, j | 0 <= i < j < |s.devices| ensures s.devices[i].id != s.devices[j].id {
          assert prev.devices[i].id != prev.devices[j].id;
        }
      }
    }
  }
}

=== FILE: mock_service.dfy ===
/**
 * The simulated reading source (`src/services/mockTelemetryService.js`):
 * a fleet of three casings whose readings take a clamped random walk on
 * every tick, a threshold classifier with a stable-alert fallback, a
 * metric log and a bounded reading history.
 *
 * The service object is a record of its snapshot and its three id
 * counters; every operation returns the next record.  The random draws of
 * a tick arrive as `Step` values, the clock as `now`; the timer and the
 * subscriber fan-out are not modelled (an operation that emits says so in
 * its result where the caller needs to know).
 */
module MockTelemetry {
  import opened Common
  import opened Model

  const HUMIDITY_MIN: Milli := 45000
  const HUMIDITY_MAX: Milli := 75000
  const TEMPERATURE_MIN: Milli := 18000
  const TEMPERATURE_MAX: Milli := 32000
  const HISTORY_LIMIT := 60
  const ALERT_LIMIT := 6
  const LOG_LIMIT := 20

  /** Walk bounds: the thresholds widened by 5 for humidity, the battery floor and drain floor. */
  const HUMIDITY_FLOOR: Milli := HUMIDITY_MIN - 5000
  const HUMIDITY_CEILING: Milli := HUMIDITY_MAX + 5000
  const BATTERY_FLOOR: Milli := 10000
  const BATTERY_DRAIN_FLOOR: Milli := 5000
  const BATTERY_MAX: Milli := 100000
  const BATTERY_LOW: Milli := 15000

  /** Stability epsilons of the classifier: 0.2 degrees and 0.5 percent. */
  const TEMPERATURE_EPSILON: Milli := 200
  const HUMIDITY_EPSILON: Milli := 500

  /** Round to one decimal (`round(v, 1)`) and to a whole number (`round(v, 0)`). */
  const TENTHS: Grid := 100
  const UNITS: Grid := 1000

  datatype Service = Service(
    state: Snapshot,
    alertCounter: nat,
    logCounter: nat,
    readingCounter: nat)

  /**
   * The random draws one device consumes on a tick: the temperature and
   * humidity drifts, the battery drain, whether the extra drain applies
   * (about three ticks in ten) and that extra drain.  `StepInRange` gives
   * the range of each draw.
   */
  datatype Step = Step(
    temperature: Milli,
    humidity: Milli,
    battery: Milli,
    drainRoll: bool,
    drain: Milli)

  /** Each drift and drain lies in its half-open range, in thousandths. */
  predicate StepInRange(s: Step) {
    && -800 <= s.temperature < 900
    && -2500 <= s.humidity < 2500
    && 50 <= s.battery < 300
    && 500 <= s.drain < 1500
  }

  // ---------------------------------------------------------------------
  // Initial state
  // ---------------------------------------------------------------------

  datatype Template = Template(
    id: string, name: string, location: string,
    temperature: Milli, humidity: Milli, battery: Milli,
    status: DeviceStatus, isActive: bool)

  const TEMPLATES: seq<Template> := [
    Template("casing-1", "Casing 1", "Bakery Floor - Section A", 25000, 60000, 84000, Online, true),
    Template("casing-2", "Casing 2", "Proofing Room", 23000, 58000, 62000, Standby, false),
    Template("casing-3", "Casing 3", "Storage - Section C", 28000, 65000, 47000, Standby, false)
  ]

  function FromTemplate(t: Template, now: Timestamp): Device {
    Device(t.id, t.name, t.location,
      Some(RoundHalfUp(t.temperature, TENTHS)),
      Some(RoundHalfUp(t.humidity, TENTHS)),
      Some(RoundHalfUp(t.battery, UNITS)),
      t.status, t.isActive, now)
  }

  /** First device flagged active, else the first device. */
  function InitialActive(ds: seq<Device>): (k: nat)
    requires |ds| > 0
    ensures k < |ds|
    ensures (exists i :: 0 <= i < |ds| && ds[i].isActive) ==> ds[k].isActive
    ensures forall j :: 0 <= j < k ==> !ds[j].isActive
    ensures (forall i :: 0 <= i < |ds| ==> !ds[i].isActive) ==> k == 0
  {
    if ds[0].isActive || |ds| == 1 then 0
    else
      var k := InitialActive(ds[1..]);
      if ds[1..][k].isActive then k + 1 else 0
  }

  /**
   * The constructor's `createInitialState`: templates copied with rounded
   * readings, one success alert, one info log and one history entry per
   * device; the three counters end at 1, 1 and 3.
   */
  function Create(now: Timestamp): (svc: Service)
    ensures |svc.state.devices| == 3
    ensures svc.state.activeDeviceId == Some("casing-1")
    ensures |svc.state.alerts| == 1 && svc.state.alerts[0].severity == SUCCESS
    ensures svc.readingCounter == |svc.state.devices|
  {
    var devices := seq(|TEMPLATES|, i requires 0 <= i < |TEMPLATES| => FromTemplate(TEMPLATES[i], now));
    var active := devices[InitialActive(devices)];
    var alerts := [Alert(AlertNo(1), "casing-1", HumidityResolved, SUCCESS, None, None, now,
                         BackInRange, None, None)];
    var logs := [LogEntry(LogNo(1), now, "casing-1", InfoLog, None, None, None)];
    var history := seq(|devices|, i requires 0 <= i < |devices| =>
      HistoryEntry(ReadingNo(i + 1), devices[i].id, devices[i].temperature, devices[i].humidity, now));
    var summary := Summary(active.temperature, active.humidity, 0, 0, Some(now), Some(active.id));
    Service(Snapshot(summary, devices, alerts, logs, history, Some(active.id), Some(now)), 1, 1, |devices|)
  }

  // ---------------------------------------------------------------------
  // Random walk
  // ---------------------------------------------------------------------

  /** Battery after one tick, before rounding: decay, then an occasional extra drain below 15%. */
  function DrainedBattery(battery: Milli, s: Step): Milli {
    var b := Clamp(battery - s.battery, BATTERY_FLOOR, BATTERY_MAX);
    if b < BATTERY_LOW && s.drainRoll then Clamp(b - s.drain, BATTERY_DRAIN_FLOOR, BATTERY_MAX) else b
  }

  /**
   * One device's step of the walk: the readings move, the identity stays,
   * and the device is flagged active exactly when its id is the active id.
   */
  function Walk(d: Device, s: Step, activeId: Option<string>, now: Timestamp): (r: Device)
    ensures r.id == d.id && r.name == d.name && r.location == d.location
    ensures r.isActive <==> activeId == Some(d.id)
    ensures r.status == (if r.isActive then Online else d.status)
    ensures r.lastUpdated == now
    ensures r.temperature.Some? && TEMPERATURE_MIN <= r.temperature.value <= TEMPERATURE_MAX
    ensures r.humidity.Some? && HUMIDITY_FLOOR <= r.humidity.value <= HUMIDITY_CEILING
    ensures r.battery.Some? && BATTERY_DRAIN_FLOOR <= r.battery.value <= BATTERY_MAX
  {
    RoundClampedStaysInRange(Num(d.temperature) + s.temperature, TEMPERATURE_MIN, TEMPERATURE_MAX, TENTHS);
    RoundClampedStaysInRange(Num(d.humidity) + s.humidity, HUMIDITY_FLOOR, HUMIDITY_CEILING, TENTHS);
    var b := DrainedBattery(Num(d.battery), s);
    assert Clamp(b, BATTERY_DRAIN_FLOOR, BATTERY_MAX) == b;
    RoundClampedStaysInRange(b, BATTERY_DRAIN_FLOOR, BATTERY_MAX, UNITS);
    var isActive := activeId == Some(d.id);
    d.(
      temperature := Some(RoundHalfUp(Clamp(Num(d.temperature) + s.temperature, TEMPERATURE_MIN, TEMPERATURE_MAX), TENTHS)),
      humidity := Some(RoundHalfUp(Clamp(Num(d.humidity) + s.humidity, HUMIDITY_FLOOR, HUMIDITY_CEILING), TENTHS)),
      battery := Some(RoundHalfUp(b, UNITS)),
      status := if isActive then Online else d.status,
      isActive := isActive,
      lastUpdated := now)
  }

  function WalkAll(ds: seq<Device>, steps: seq<Step>, activeId: Option<string>, now: Timestamp): (r: seq<Device>)
    requires |steps| == |ds|
    ensures |r| == |ds|
    ensures forall i :: 0 <= i < |ds| ==> r[i] == Walk(ds[i], steps[i], activeId, now)
  {
    seq(|ds|, i requires 0 <= i < |ds| => Walk(ds[i], steps[i], activeId, now))
  }

  /** Index of the device with the active id; failing that the first device; none for an empty fleet. */
  function ActiveOrFirst(ds: seq<Device>, activeId: Option<string>): (r: Option<nat>)
    ensures r.Some? ==> r.value < |ds|
    ensures r.None? <==> |ds| == 0
  {
    var found := if activeId.Some? then FindDevice(ds, activeId.value) else None;
    if found.Some? then found else if |ds| > 0 then Some(0) else None
  }

  /** The history entries of one tick, one per device in device order. */
  function ReadingEntries(ds: seq<Device>, counter: nat, now: Timestamp): (r: seq<HistoryEntry>)
    ensures |r| == |ds|
  {
    seq(|ds|, i requires 0 <= i < |ds| =>
      HistoryEntry(ReadingNo(counter + i + 1), ds[i].id, ds[i].temperature, ds[i].humidity, now))
  }

  /**
   * The device the tick makes active: the one with the active id, else the
   * first one, flagged active and online if it was not already.
   */
  function NextActive(walked: seq<Device>, activeId: Option<string>): (r: Option<Device>)
    ensures r.None? <==> |walked| == 0
  {
    var index := ActiveOrFirst(walked, activeId);
    if index.None? then None
    else if walked[index.value].isActive then Some(walked[index.value])
    else Some(walked[index.value].(isActive := true, status := Online))
  }

  /**
   * The fleet with the promoted device written back over every entry that
   * carries its id; every other entry is left as the walk produced it.
   */
  function WithActive(walked: seq<Device>, active: Option<Device>): (r: seq<Device>)
    ensures |r| == |walked|
    ensures forall i :: 0 <= i < |walked| && !(active.Some? && walked[i].id == active.value.id) ==> r[i] == walked[i]
    ensures active.Some? ==> forall i :: 0 <= i < |walked| && walked[i].id == active.value.id ==> r[i] == active.value
  {
    seq(|walked|, i requires 0 <= i < |walked| =>
      if active.Some? && walked[i].id == active.value.id then active.value else walked[i])
  }

  function HeadId(alerts: seq<Alert>): Option<Id> {
    if |alerts| > 0 then Some(alerts[0].id) else None
  }

  /**
   * `tick()`: walk every device, keep or pick the active device, compute the
   * trend against the previous summary, prepend one history entry per device,
   * then rebuild alerts and logs.
   */
  function Tick(svc: Service, now: Timestamp, steps: seq<Step>): (r: Service)
    requires |steps| == |svc.state.devices|
    requires forall i :: 0 <= i < |steps| ==> StepInRange(steps[i])
    ensures |r.state.devices| == |svc.state.devices|
    ensures forall i :: 0 <= i < |svc.state.devices| && r.state.activeDeviceId != Some(svc.state.devices[i].id) ==>
      r.state.devices[i] == Walk(svc.state.devices[i], steps[i], svc.state.activeDeviceId, now)
    ensures r.state.activeDeviceId.None? <==> |svc.state.devices| == 0
    ensures |r.state.history| <= HISTORY_LIMIT && |r.state.alerts| <= ALERT_LIMIT && |r.state.logs| <= LOG_LIMIT
    ensures r.readingCounter == svc.readingCounter + |svc.state.devices|
    ensures svc.alertCounter <= r.alertCounter && svc.logCounter <= r.logCounter
    ensures r.state.lastUpdated == Some(now)
  {
    var prev := svc.state;
    var walked := WalkAll(prev.devices, steps, prev.activeDeviceId, now);
    var active := NextActive(walked, prev.activeDeviceId);
    var nextId := if active.Some? then Some(active.value.id) else None;
    var devices := WithActive(walked, active);
    var temperatureTrend :=
      if active.Some? then RoundHalfUp(Num(active.value.temperature) - Num(prev.summary.temperature), TENTHS) else 0;
    var humidityTrend :=
      if active.Some? then RoundHalfUp(Num(active.value.humidity) - Num(prev.summary.humidity), TENTHS) else 0;
    // The summary falls back to the previous first device only when there is
    // no active device; the walk keeps the device count, so that never applies.
    var summaryDevice := active;
    var history := Take(ReadingEntries(devices, svc.readingCounter, now) + prev.history, HISTORY_LIMIT);
    var (alerts, alertCounter) := BuildAlerts(prev.alerts, summaryDevice, now, temperatureTrend, humidityTrend, svc.alertCounter);
    var hasNewAlert := HeadId(alerts) != HeadId(prev.alerts);
    var (logs, logCounter) := BuildLogs(prev.logs, summaryDevice, now, hasNewAlert, svc.logCounter);
    var summary := Summary(
      if summaryDevice.Some? then summaryDevice.value.temperature else prev.summary.temperature,
      if summaryDevice.Some? then summaryDevice.value.humidity else prev.summary.humidity,
      temperatureTrend,
      humidityTrend,
      Some(now),
      if summaryDevice.Some? then Some(summaryDevice.value.id) else prev.summary.deviceId);
    Service(Snapshot(summary, devices, alerts, logs, history, nextId, Some(now)),
            alertCounter, logCounter, svc.readingCounter + |devices|)
  }

  // ---------------------------------------------------------------------
  // Classifier
  // ---------------------------------------------------------------------

  /** Humidity above 75 is high, otherwise below 45 is low. */
  function HumidityCondition(d: Device): Option<Condition> {
    if Num(d.humidity) > HUMIDITY_MAX then Some(HighHumidity)
    else if Num(d.humidity) < HUMIDITY_MIN then Some(LowHumidity)
    else None
  }

  /** Temperature above 31 is high, otherwise below 19 is low: one degree inside the range. */
  function TemperatureCondition(d: Device): Option<Condition> {
    if Num(d.temperature) > TEMPERATURE_MAX - 1000 then Some(HighTemperature)
    else if Num(d.temperature) < TEMPERATURE_MIN + 1000 then Some(LowTemperature)
    else None
  }

  function AsSeq(c: Option<Condition>): seq<Condition> {
    if c.Some? then [c.value] else []
  }

  /** The breached conditions, humidity first, in the order they are pushed. */
  function Conditions(d: Device): (r: seq<Condition>)
    ensures |r| <= 2
    ensures |r| == 0 <==> HumidityCondition(d).None? && TemperatureCondition(d).None?
    ensures HumidityCondition(d).Some? ==> r[0] == HumidityCondition(d).value
    ensures TemperatureCondition(d).Some? ==> r[|r| - 1] == TemperatureCondition(d).value
  {
    AsSeq(HumidityCondition(d)) + AsSeq(TemperatureCondition(d))
  }

  function IsHumidity(c: Condition): bool {
    c == HighHumidity || c == LowHumidity
  }

  function BreachAlert(c: Condition, n: nat, d: Device, timestamp: Timestamp): Alert {
    Alert(AlertNo(n), d.id, Detected(c), WARNING, None, None, timestamp,
          Measured(if IsHumidity(c) then Num(d.humidity) else Num(d.temperature)), None, None)
  }

  function StableAlert(n: nat, d: Device, timestamp: Timestamp): Alert {
    Alert(AlertNo(n), d.id, ConditionsStable, SUCCESS, None, None, timestamp, AllNominal, None, None)
  }

  /**
   * Each breached condition in turn gets the next counter value and is put
   * in front, so the last condition ends first.
   */
  function Unshifted(conditions: seq<Condition>, counter: nat, d: Device, timestamp: Timestamp): (r: seq<Alert>)
    ensures |r| == |conditions|
  {
    if |conditions| == 0 then []
    else Unshifted(conditions[1..], counter + 1, d, timestamp) + [BreachAlert(conditions[0], counter + 1, d, timestamp)]
  }

  predicate WithinEpsilon(temperatureTrend: Milli, humidityTrend: Milli) {
    Abs(temperatureTrend) <= TEMPERATURE_EPSILON && Abs(humidityTrend) <= HUMIDITY_EPSILON
  }

  /**
   * `buildAlerts`: with no device the previous alerts are only truncated;
   * otherwise every breach is prepended as its own warning, or, with no
   * breach and both trends within epsilon, one stable alert is prepended
   * unless the head alert already has success severity.  The counter after
   * the call is returned beside the list.
   */
  function BuildAlerts(previous: seq<Alert>, active: Option<Device>, timestamp: Timestamp,
                       temperatureTrend: Milli, humidityTrend: Milli, counter: nat): (r: (seq<Alert>, nat))
    ensures |r.0| <= ALERT_LIMIT
    ensures counter <= r.1 <= counter + 2
  {
    if active.None? then (Take(previous, ALERT_LIMIT), counter)
    else
      var conditions := Conditions(active.value);
      if WithinEpsilon(temperatureTrend, humidityTrend) && |conditions| == 0 then
        if |previous| == 0 || previous[0].severity != SUCCESS then
          (Take([StableAlert(counter + 1, active.value, timestamp)] + previous, ALERT_LIMIT), counter + 1)
        else (Take(previous, ALERT_LIMIT), counter)
      else (Take(Unshifted(conditions, counter, active.value, timestamp) + previous, ALERT_LIMIT), counter + |conditions|)
  }

  /**
   * `buildLogs`: one metric log, and in front of it an alert log when the
   * head alert changed, ahead of the previous logs, capped at 20.
   */
  function BuildLogs(previous: seq<LogEntry>, active: Option<Device>, timestamp: Timestamp,
                     hasNewAlert: bool, counter: nat): (r: (seq<LogEntry>, nat))
    ensures |r.0| <= LOG_LIMIT
  {
    if active.None? then (Take(previous, LOG_LIMIT), counter)
    else
      var d := active.value;
      var metric := LogEntry(LogNo(counter + 1), timestamp, d.id, MetricLog, None, d.temperature, d.humidity);
      if hasNewAlert then
        var alert := LogEntry(LogNo(counter + 2), timestamp, d.id, AlertLog, None, None, None);
        (Take([alert, metric] + previous, LOG_LIMIT), counter + 2)
      else (Take([metric] + previous, LOG_LIMIT), counter + 1)
  }

  // ---------------------------------------------------------------------
  // Commands
  // ---------------------------------------------------------------------

  /**
   * `setActiveDevice(id)`: ignored (no emit) for an empty, unknown or
   * already active id; otherwise flags only the chosen device active and
   * online, points the summary at its readings with zero trends, and emits.
   * The boolean result tells whether subscribers were notified.
   */
  function SetActiveDevice(svc: Service, id: string, now: Timestamp): (r: (Service, bool))
    ensures r.1 <==> id != "" && FindDevice(svc.state.devices, id).Some? && svc.state.activeDeviceId != Some(id)
    ensures !r.1 ==> r.0 == svc
    ensures r.1 ==> r.0.state.activeDeviceId == Some(id) && r.0.state.summary.deviceId == Some(id)
    ensures |r.0.state.devices| == |svc.state.devices|
    ensures forall i :: 0 <= i < |svc.state.devices| ==> r.0.state.devices[i].id == svc.state.devices[i].id
    ensures r.0.state.alerts == svc.state.alerts && r.0.state.logs == svc.state.logs
    ensures r.0.state.history == svc.state.history
    ensures r.0.alertCounter == svc.alertCounter && r.0.logCounter == svc.logCounter
    ensures r.0.readingCounter == svc.readingCounter
  {
    var prev := svc.state;
    if id == "" then (svc, false)
    else
      var found := FindDevice(prev.devices, id);
      if found.None? then (svc, false)
      else if prev.activeDeviceId == Some(id) then (svc, false)
      else
        var devices := seq(|prev.devices|, i requires 0 <= i < |prev.devices| =>
          prev.devices[i].(isActive := prev.devices[i].id == id,
                           status := if prev.devices[i].id == id then Online else prev.devices[i].status));
        var active := devices[found.value];
        var summary := prev.summary.(
          temperature := active.temperature,
          humidity := active.humidity,
          temperatureTrend := 0,
          humidityTrend := 0,
          lastUpdated := Some(active.lastUpdated),
          deviceId := Some(id));
        (svc.(state := prev.(devices := devices, activeDeviceId := Some(id), summary := summary,
                             lastUpdated := Some(now))), true)
  }
}

=== FILE: model.dfy ===
/**
 * The records both telemetry sources produce and the provider publishes:
 * devices, alerts, log entries, history entries, the summary and the
 * snapshot that bundles them.
 *
 * Every reading, trend and battery level is an integer number of
 * thousandths of its unit (a temperature of 25.4 degrees is 25400), so
 * the one-decimal and two-decimal roundings of the source are ordinary
 * integer operations.  Timestamps are integers; the ISO rendering of an
 * instant is left out.
 */
module Model {
  import opened Common

  /** A reading, trend or battery level in thousandths of its unit. */
  type Milli = int

  type Timestamp = int

  /**
   * Record identities.  The source renders them as strings; the model keeps
   * the parts they are built from, so two ids are equal exactly when their
   * parts are.
   */
  datatype Id =
    | AlertNo(n: nat)               // simulated `alert-<n>`
    | LogNo(n: nat)                 // simulated `log-<n>`
    | ReadingNo(n: nat)             // simulated `reading-<n>`
    | ReadingAt(at: Timestamp)      // live `reading-<capturedAt>`
    | ReadingLogAt(at: Timestamp)   // live `reading-log-<capturedAt>`
    | ServerAlert(key: string)      // live `alert-<id sent by the server>`
    | AlertAt(at: Timestamp)        // live `alert-<timestamp>` for an alert without id
    | HistoryLog(entry: Id)         // live `history-<history entry id>`

  datatype DeviceStatus = Online | Standby | Offline

  /** A sensor casing; absent readings are `None` (the source's `null`). */
  datatype Device = Device(
    id: string,
    name: string,
    location: string,
    temperature: Option<Milli>,
    humidity: Option<Milli>,
    battery: Option<Milli>,
    status: DeviceStatus,
    isActive: bool,
    lastUpdated: Timestamp)

  /** The four threshold breaches the simulated classifier reports. */
  datatype Condition = HighHumidity | LowHumidity | HighTemperature | LowTemperature

  /** Alert titles; the human-readable wording is not modelled, only its kind. */
  datatype AlertTitle =
    | HumidityResolved          // "High humidity resolved" (the simulated baseline alert)
    | ConditionsStable          // "Conditions stable"
    | Detected(condition: Condition)
    | SensorThreshold           // live alert of type "sensor_threshold"
    | ServerType(name: string)  // live alert of any other non-empty type
    | GenericAlert              // live alert without a type: "Alert"

  /** The formatted `value` string of an alert, by what it quotes. */
  datatype AlertValue =
    | BackInRange                                          // "Back in range"
    | AllNominal                                           // "All metrics nominal"
    | Measured(reading: Milli)                             // "65%" or "28°C"
    | Readout(temperature: Option<Milli>, humidity: Option<Milli>)
    | NoValue                                              // null

  datatype Alert = Alert(
    id: Id,
    deviceId: string,
    title: AlertTitle,
    severity: string,
    level: Option<string>,
    message: Option<string>,
    timestamp: Timestamp,
    value: AlertValue,
    temperature: Option<Milli>,
    humidity: Option<Milli>)

  /** The simulated `type` and the live `category` of a log entry. */
  datatype LogCategory = ReadingLog | AlertLog | TrendLog | MetricLog | InfoLog

  /** A log record; the simulated source sets no severity. */
  datatype LogEntry = LogEntry(
    id: Id,
    timestamp: Timestamp,
    deviceId: string,
    category: LogCategory,
    severity: Option<string>,
    temperature: Option<Milli>,
    humidity: Option<Milli>)

  datatype HistoryEntry = HistoryEntry(
    id: Id,
    deviceId: string,
    temperature: Option<Milli>,
    humidity: Option<Milli>,
    timestamp: Timestamp)

  datatype Summary = Summary(
    temperature: Option<Milli>,
    humidity: Option<Milli>,
    temperatureTrend: Milli,
    humidityTrend: Milli,
    lastUpdated: Option<Timestamp>,
    deviceId: Option<string>)

  /** The aggregate both sources publish. */
  datatype Snapshot = Snapshot(
    summary: Summary,
    devices: seq<Device>,
    alerts: seq<Alert>,
    logs: seq<LogEntry>,
    history: seq<HistoryEntry>,
    activeDeviceId: Option<string>,
    lastUpdated: Option<Timestamp>)

  const SUCCESS := "success"
  const WARNING := "warning"
  const CRITICAL := "critical"
  const INFO := "info"

  /** JavaScript's `null` in arithmetic: it counts as 0. */
  function Num(v: Option<Milli>): Milli {
    v.GetOr(0)
  }

  /** JavaScript truthiness of an optional string: absent and "" are both false. */
  function OrElse(v: Option<string>, fallback: string): (r: string)
    ensures v.Some? && v.value != "" ==> r == v.value
    ensures (v.None? || v.value == "") ==> r == fallback
  {
    if v.Some? && v.value != "" then v.value else fallback
  }

  function DeviceId(d: Device): string { d.id }
  function AlertId(a: Alert): Id { a.id }
  function LogId(e: LogEntry): Id { e.id }
  function LogTime(e: LogEntry): int { e.timestamp }
  function AlertTime(a: Alert): int { a.timestamp }
  function HistoryId(h: HistoryEntry): Id { h.id }

  /**
   * Position of the first device with the given id, as `Array.find` and
   * `Array.some` see it.
   */
  function FindDevice(ds: seq<Device>, id: string): (r: Option<nat>)
    ensures r.Some? ==> r.value < |ds| && ds[r.value].id == id
    ensures r.Some? ==> forall j :: 0 <= j < r.value ==> ds[j].id != id
    ensures r.None? ==> forall j :: 0 <= j < |ds| ==> ds[j].id != id
  {
    if |ds| == 0 then None
    else if ds[0].id == id then Some(0)
    else
      var rest := FindDevice(ds[1..], id);
      if rest.Some? then Some(rest.value + 1) else None
  }

  /** Device ids are pairwise distinct. */
  ghost predicate DistinctIds(ds: seq<Device>) {
    UniqueBy(ds, DeviceId)
  }

  /** Exactly one device is flagged active, and it is the one at `k`. */
  ghost predicate OnlyActiveAt(ds: seq<Device>, k: int) {
    0 <= k < |ds| && ds[k].isActive &&
    forall i :: 0 <= i < |ds| && ds[i].isActive ==> i == k
  }

  ghost predicate ExactlyOneActive(ds: seq<Device>) {
    exists k :: OnlyActiveAt(ds, k)
  }
}

=== FILE: provider.dfy ===
/**
 * The provider of `src/hooks/TelemetryProvider.jsx` as a state machine.
 * Its refs and React state are one `Engine` record; every handler is a
 * function from the engine and its inputs to the next engine.  A poll is
 * split in two: `BeginPoll` runs the guards and captures the token,
 * `CompletePoll` receives the outcome with the captured token.  Random
 * draws and the clock are parameters; timers, subscriptions and React's
 * scheduling are not modelled.
 */
module Provider {
  import opened Common
  import opened Model
  import opened LiveMerge
  import MockTelemetry

  /** `modeRef`: which source feeds the view. */
  datatype Mode = LiveMode | MockMode

  /**
   * The provider's refs and state: the published view, the mode, the
   * current token, the previous-reading memory, the dismissed banner ids
   * and the simulated source once one was created.
   */
  datatype Engine = Engine(
    view: View,
    mode: Mode,
    token: Option<string>,
    previous: Option<PreviousReading>,
    dismissed: set<BannerId>,
    mock: Option<MockTelemetry.Service>)

  /**
   * How a poll ended: with the payloads its requests returned (a request
   * error already turned into an empty payload by the API client), or with
   * an exception thrown while processing them, carrying an optional message.
   * Processing throws only once a reading arrived and was remembered, so a
   * failure carries that reading.
   */
  datatype PollOutcome = Fetched(payloads: Payloads) | Failed(reading: ReadingPayload, message: Option<string>)

  /** The subscriber's view of a simulated snapshot: no banner, status "mock", no error. */
  function MockView(s: Snapshot): (v: View)
    ensures v.data == s && v.banner.None? && v.status == MockFeed && v.error.None?
  {
    View(s, None, MockFeed, None)
  }

  /** The engine as the provider is constructed, before its effects run. */
  function Initial(): (e: Engine)
    ensures e.mode.LiveMode? && e.view == InitialView() && e.mock.None? && e.dismissed == {}
  {
    Engine(InitialView(), LiveMode, None, None, {}, None)
  }

  /** A falsy token is no token; any other token is kept as it is. */
  function TokenOf(raw: string): (t: Option<string>)
    ensures t.None? <==> raw == ""
    ensures raw != "" ==> t == Some(raw)
  {
    if raw == "" then None else Some(raw)
  }

  // ---------------------------------------------------------------------
  // Mode switch
  // ---------------------------------------------------------------------

  /**
   * `activateMock`: ignored in mock mode; otherwise reuses the simulated
   * source if one exists (or creates the baseline), subscribes, which
   * publishes its snapshot at once, and enters mock mode.
   */
  function ActivateMock(e: Engine, now: Timestamp): (r: Engine)
    ensures e.mode.MockMode? ==> r == e
    ensures r.mode.MockMode?
    ensures e.mode.LiveMode? ==> r.mock.Some? && r.view == MockView(r.mock.value.state)
    ensures e.mock.Some? ==> r.mock == e.mock
    ensures e.mock.None? && e.mode.LiveMode? ==> r.mock == Some(MockTelemetry.Create(now))
    ensures r.token == e.token && r.previous == e.previous && r.dismissed == e.dismissed
  {
    if e.mode.MockMode? then e
    else
      var svc := if e.mock.Some? then e.mock.value else MockTelemetry.Create(now);
      e.(mode := MockMode, mock := Some(svc), view := MockView(svc.state))
  }

  /**
   * `deactivateMock`: acts only in mock mode; unsubscribes and stops the
   * simulated source (which is kept) and resets the view to the empty
   * initial state.
   */
  function DeactivateMock(e: Engine): (r: Engine)
    ensures e.mode.LiveMode? ==> r == e
    ensures r.mode.LiveMode?
    ensures e.mode.MockMode? ==> r.view == InitialView()
    ensures r.mock == e.mock && r.token == e.token && r.previous == e.previous && r.dismissed == e.dismissed
  {
    if e.mode.LiveMode? then e else e.(mode := LiveMode, view := InitialView())
  }

  // ---------------------------------------------------------------------
  // Polling
  // ---------------------------------------------------------------------

  /**
   * `pollTelemetry` up to the requests: nothing in mock mode or without a
   * token; otherwise an idle view turns to loading and the token is
   * captured for the completion.
   */
  function BeginPoll(e: Engine): (r: (Engine, Option<string>))
    ensures r.1.Some? <==> e.mode.LiveMode? && e.token.Some?
    ensures r.1.Some? ==> r.1 == e.token
    ensures r.1.None? ==> r.0 == e
    ensures r.0.view.data == e.view.data && r.0.view.banner == e.view.banner
    ensures r.0 == e.(view := r.0.view)
    ensures r.0.view.status == (if r.1.Some? && e.view.status == Idle then Loading else e.view.status)
  {
    if e.mode.MockMode? || e.token.None? then (e, None)
    else
      var view := if e.view.status == Idle then e.view.(status := Loading, error := None) else e.view;
      (e.(view := view), e.token)
  }

  /**
   * The rest of `pollTelemetry`, once the requests settled with the token
   * captured at the start: a result for a token that is no longer current
   * is dropped; payloads are merged; a failure keeps the reading it had
   * already remembered, flags the error and then switches to the simulated
   * source.  When the engine was live, the
   * subscription publishes the simulated snapshot right after, so the
   * error status does not survive the switch.
   */
  function CompletePoll(e: Engine, ticket: string, outcome: PollOutcome, now: Timestamp): (r: Engine)
    ensures e.token != Some(ticket) ==> r == e
    ensures r.token == e.token && r.dismissed == e.dismissed
    ensures e.token == Some(ticket) && outcome.Failed? ==> r.mode.MockMode?
  {
    if e.token != Some(ticket) then e
    else
      match outcome
      case Fetched(payloads) =>
        var (view, previous) := ApplyReadingUpdate(e.view, e.previous, e.dismissed, payloads, now);
        e.(view := view, previous := previous)
      case Failed(reading, message) =>
        var flagged := e.(view := e.view.(status := Errored, error := Some(OrElse(message, UNREACHABLE))),
                          previous := Some(Remembered(reading, now)));
        ActivateMock(flagged, now)
  }

  // ---------------------------------------------------------------------
  // Token effects
  // ---------------------------------------------------------------------

  /**
   * The two effects on the token, in declaration order.  Without a token:
   * forget the previous reading and the dismissed ids and switch to the
   * simulated source.  With one: leave mock mode, forget, reset the view,
   * then start polling.  The captured poll token is returned.
   */
  function RunTokenEffects(e: Engine, raw: string, now: Timestamp): (r: (Engine, Option<string>))
    ensures r.0.token == TokenOf(raw) && r.0.previous.None? && r.0.dismissed == {}
    ensures raw == "" ==> r.0.mode.MockMode? && r.1.None?
    ensures raw != "" ==> r.0.mode.LiveMode? && r.1 == TokenOf(raw)
    ensures raw != "" ==> r.0.view == InitialView().(status := Loading)
    ensures r.0.mock.Some? ==> e.mock.Some? || raw == ""
  {
    var token := TokenOf(raw);
    var e1 := e.(token := token);
    if token.None? then
      (ActivateMock(e1.(previous := None, dismissed := {}), now), None)
    else
      var e2 := DeactivateMock(e1).(previous := None, dismissed := {}, view := InitialView());
      BeginPoll(DeactivateMock(e2))
  }

  /** The provider mounting with a token (`""` for none). */
  function Mount(raw: string, now: Timestamp): (r: (Engine, Option<string>))
    ensures r.0.token == TokenOf(raw)
  {
    RunTokenEffects(Initial(), raw, now)
  }

  /** A new token prop: the effects run only when the token actually changed. */
  function ChangeToken(e: Engine, raw: string, now: Timestamp): (r: (Engine, Option<string>))
    ensures TokenOf(raw) == e.token ==> r == (e, None)
    ensures r.0.token == TokenOf(raw)
  {
    if TokenOf(raw) == e.token then (e, None) else RunTokenEffects(e, raw, now)
  }

  // ---------------------------------------------------------------------
  // Commands
  // ---------------------------------------------------------------------

  /** The draws a simulated tick needs for the engine's fleet. */
  ghost predicate StepsFit(e: Engine, steps: seq<MockTelemetry.Step>) {
    e.mock.Some? ==>
      && |steps| == |e.mock.value.state.devices|
      && forall i :: 0 <= i < |steps| ==> MockTelemetry.StepInRange(steps[i])
  }

  /** One simulated tick; the subscription republishes only while in mock mode. */
  function MockTick(e: Engine, now: Timestamp, steps: seq<MockTelemetry.Step>): (r: Engine)
    requires StepsFit(e, steps)
    ensures e.mock.None? ==> r == e
    ensures r.mode == e.mode && r.token == e.token && r.previous == e.previous && r.dismissed == e.dismissed
    ensures r.mock.Some? == e.mock.Some?
    ensures e.mock.Some? && e.mode.MockMode? ==> r.view == MockView(r.mock.value.state)
    ensures e.mode.LiveMode? ==> r.view == e.view
  {
    if e.mock.None? then e
    else
      var svc := MockTelemetry.Tick(e.mock.value, now, steps);
      e.(mock := Some(svc), view := if e.mode.MockMode? then MockView(svc.state) else e.view)
  }

  /** The simulated source's own timer; it runs only while the source is started, in mock mode. */
  function MockTimerFires(e: Engine, now: Timestamp, steps: seq<MockTelemetry.Step>): (r: Engine)
    requires StepsFit(e, steps)
    ensures e.mode.LiveMode? ==> r == e
  {
    if e.mode.MockMode? then MockTick(e, now, steps) else e
  }

  /**
   * `refresh`: in mock mode one simulated tick; live without a token
   * nothing; live with a token the view turns to loading and a poll starts.
   */
  function Refresh(e: Engine, now: Timestamp, steps: seq<MockTelemetry.Step>): (r: (Engine, Option<string>))
    requires StepsFit(e, steps)
    ensures e.mode.MockMode? ==> r.1.None? && r.0 == MockTick(e, now, steps)
    ensures e.mode.LiveMode? && e.token.None? ==> r == (e, None)
    ensures e.mode.LiveMode? && e.token.Some? ==>
      r.1 == e.token && r.0 == e.(view := e.view.(status := Loading, error := None))
  {
    if e.mode.MockMode? then (MockTick(e, now, steps), None)
    else if e.token.None? then (e, None)
    else BeginPoll(e.(view := e.view.(status := Loading, error := None)))
  }

  /**
   * `setActiveDevice`: ignored for an empty id; in mock mode delegated to
   * the simulated source, whose emit republishes; live, applied to the view.
   */
  function SetActiveDevice(e: Engine, id: string, now: Timestamp): (r: Engine)
    ensures id == "" ==> r == e
    ensures r.mode == e.mode && r.token == e.token && r.previous == e.previous && r.dismissed == e.dismissed
    ensures id != "" && e.mode.LiveMode? ==> r == e.(view := SelectLiveDevice(e.view, id))
  {
    if id == "" then e
    else if e.mode.MockMode? then
      if e.mock.None? then e
      else
        var (svc, emitted) := MockTelemetry.SetActiveDevice(e.mock.value, id, now);
        e.(mock := Some(svc), view := if emitted then MockView(svc.state) else e.view)
    else e.(view := SelectLiveDevice(e.view, id))
  }

  /**
   * `dismissBanner`: ignored for a missing id; otherwise the id joins the
   * dismissed set for good and a banner with that id is taken down.
   */
  function DismissBanner(e: Engine, id: Option<BannerId>): (r: Engine)
    ensures id.None? ==> r == e
    ensures id.Some? ==> r.dismissed == e.dismissed + {id.value} && r.view == TakeDown(e.view, id.value)
    ensures r.mode == e.mode && r.token == e.token && r.mock == e.mock
  {
    if id.None? then e else e.(dismissed := e.dismissed + {id.value}, view := TakeDown(e.view, id.value))
  }

  // ---------------------------------------------------------------------
  // Event runs
  // ---------------------------------------------------------------------

  /**
   * What can happen to a mounted provider.  A completion carries the token
   * its poll captured; any string may arrive, as an out-of-date poll can.
   */
  datatype Event =
    | PollTimer
    | Completed(ticket: string, outcome: PollOutcome)
    | RefreshPressed(steps: seq<MockTelemetry.Step>)
    | MockTimer(steps: seq<MockTelemetry.Step>)
    | DeviceSelected(id: string)
    | BannerDismissed(bannerId: Option<BannerId>)
    | TokenChanged(raw: string)

  /** The draws an event carries fit the fleet it will tick. */
  ghost predicate Admissible(e: Engine, ev: Event) {
    (ev.RefreshPressed? || ev.MockTimer?) ==> StepsFit(e, ev.steps)
  }

  /** The engine after one event at time `now`; started polls are implied by later completions. */
  function Handle(e: Engine, ev: Event, now: Timestamp): (r: Engine)
    requires Admissible(e, ev)
    ensures !ev.TokenChanged? ==> r.token == e.token && e.dismissed <= r.dismissed
    ensures ev.TokenChanged? ==> r.token == TokenOf(ev.raw)
  {
    match ev
    case PollTimer => BeginPoll(e).0
    case Completed(ticket, outcome) => CompletePoll(e, ticket, outcome, now)
    case RefreshPressed(steps) => Refresh(e, now, steps).0
    case MockTimer(steps) => MockTimerFires(e, now, steps)
    case DeviceSelected(id) => SetActiveDevice(e, id, now)
    case BannerDismissed(id) => DismissBanner(e, id)
    case TokenChanged(raw) => ChangeToken(e, raw, now).0
  }

  /** Every event of a run is admissible in the engine it reaches. */
  ghost predicate RunAdmissible(e: Engine, events: seq<(Event, Timestamp)>)
    decreases |events|
  {
    |events| > 0 ==>
      && Admissible(e, events[0].0)
      && RunAdmissible(Handle(e, events[0].0, events[0].1), events[1..])
  }

  /** The engine after a run of timed events. */
  function Run(e: Engine, events: seq<(Event, Timestamp)>): (r: Engine)
    requires RunAdmissible(e, events)
    ensures (forall k :: 0 <= k < |events| ==> !events[k].0.TokenChanged?) ==>
      r.token == e.token && e.dismissed <= r.dismissed
    ensures |events| > 0 && events[|events| - 1].0.TokenChanged? ==>
      r.token == TokenOf(events[|events| - 1].0.raw)
    decreases |events|
  {
    if |events| == 0 then e
    else
      assert forall k :: 0 <= k < |events| - 1 ==> events[1..][k] == events[k + 1];
      Run(Handle(e, events[0].0, events[0].1), events[1..])
  }
}

=== FILE: provider_properties.dfy ===
/**
 * Properties of the provider's state machine: the failover rules, the
 * guards of polling, the effect of a token change, and an invariant every
 * event keeps — a dismissed banner stays down, a missing token means the
 * simulated source, the simulated source stays well formed, and a live
 * view shows at most the one live device.
 */
module ProviderProperties {
  import opened Common
  import opened Model
  import opened LiveMerge
  import MockTelemetry
  import MockProperties
  import LiveProperties
  import opened Provider

  /** The live view shows no device, or only the live sensor, active and selected. */
  ghost predicate LiveShaped(s: Snapshot) {
    || (|s.devices| == 0 && s.activeDeviceId.None?)
    || (&& |s.devices| == 1 && OnlyActiveAt(s.devices, 0)
        && s.devices[0].id == BASE_DEVICE_ID && s.activeDeviceId == Some(BASE_DEVICE_ID))
  }

  /** What holds of a mounted provider between events. */
  ghost predicate EngineValid(e: Engine) {
    && (e.view.banner.None? || e.view.banner.value.id !in e.dismissed)
    && (e.token.None? ==> e.mode.MockMode?)
    && (e.mode.MockMode? ==> e.mock.Some?)
    && (e.mock.Some? ==> MockProperties.MockValid(e.mock.value))
    && (e.mode.LiveMode? ==> LiveShaped(e.view.data))
  }

  // ---------------------------------------------------------------------
  // Mode switch
  // ---------------------------------------------------------------------

  /** Switching to the simulated source twice is switching once. */
  lemma ActivateMockIdempotent(e: Engine, now: Timestamp, later: Timestamp)
    ensures ActivateMock(ActivateMock(e, now), later) == ActivateMock(e, now)
  {
  }

  /**
   * Leaving mock mode and coming back resumes the same simulated source:
   * it is kept across the switch rather than rebuilt from the baseline.
   */
  lemma FailoverResumesSimulation(e: Engine, now: Timestamp)
    requires e.mode.MockMode? && e.mock.Some?
    ensures var r := ActivateMock(DeactivateMock(e), now);
      && r.mock == e.mock && r.mode.MockMode?
      && r.view == MockView(e.mock.value.state)
  {
  }

  // ---------------------------------------------------------------------
  // Polling
  // ---------------------------------------------------------------------

  /**
   * A poll for the current token whose processing threw ends in mock
   * mode.  From live mode the subscription republishes at once, so the
   * view is the simulated snapshot with status "mock" and no error; the
   * service is the existing one or the baseline.  Already in mock mode,
   * the error flag stays.  Either way the reading that was being processed
   * is remembered, exactly as a successful poll would remember it.
   */
  lemma PollFailureFailsOver(e: Engine, ticket: string, reading: ReadingPayload, message: Option<string>,
                             now: Timestamp)
    requires e.token == Some(ticket)
    ensures var r := CompletePoll(e, ticket, Failed(reading, message), now);
      && r.mode.MockMode? && r.dismissed == e.dismissed
      && r.previous == Some(PreviousReading(reading.temperature, reading.humidity, reading.capturedAt.GetOr(now)))
      && (forall ms, h :: r.previous == CompletePoll(e, ticket, Fetched(Payloads(Some(reading), ms, h)), now).previous)
      && (e.mode.LiveMode? ==>
            && r.mock == Some(if e.mock.Some? then e.mock.value else MockTelemetry.Create(now))
            && r.view == MockView(r.mock.value.state))
      && (e.mode.MockMode? ==>
            && r.mock == e.mock
            && r.view == e.view.(status := Errored, error := Some(OrElse(message, UNREACHABLE))))
  {
  }

  /**
   * A reading whose processing failed is not new when a late poll brings
   * it again: the late poll leaves the history and the memory as they were.
   */
  lemma FailedReadingIsNotNewAgain(e: Engine, ticket: string, reading: ReadingPayload, message: Option<string>,
                                   messages: Option<seq<string>>, history: Option<seq<RawAlert>>,
                                   now: Timestamp, later: Timestamp)
    requires e.token == Some(ticket)
    requires reading.capturedAt.Some? || later == now
    ensures var failed := CompletePoll(e, ticket, Failed(reading, message), now);
      var late := CompletePoll(failed, ticket, Fetched(Payloads(Some(reading), messages, history)), later);
      && !IsNew(failed.previous, reading.capturedAt.GetOr(later))
      && late.view.data.history == failed.view.data.history
      && late.previous == failed.previous
  {
  }

  /**
   * A request that fails at the transport is caught by the API client and
   * answered with no reading and empty alert lists.  Such a poll takes the
   * empty-payload path: the view is flagged with the empty-payload error,
   * and the provider neither changes mode nor forgets the previous reading.
   */
  lemma UnreachableBackendFlagsError(e: Engine, ticket: string, now: Timestamp)
    requires e.token == Some(ticket)
    ensures var r := CompletePoll(e, ticket, Fetched(Payloads(None, Some([]), Some([]))), now);
      && r.mode == e.mode && r.mock == e.mock && r.previous == e.previous
      && r.view == e.view.(status := Errored, error := Some(EMPTY_PAYLOAD))
  {
  }

  /** A successful poll for the current token merges its payloads and changes nothing else. */
  lemma PollSuccessMerges(e: Engine, ticket: string, payloads: Payloads, now: Timestamp)
    requires e.token == Some(ticket)
    ensures var r := CompletePoll(e, ticket, Fetched(payloads), now);
      var (view, previous) := ApplyReadingUpdate(e.view, e.previous, e.dismissed, payloads, now);
      r == e.(view := view, previous := previous)
  {
  }

  /**
   * The failover does not cancel a poll already in flight for the same
   * token: when such a poll succeeds after the switch, its live data is
   * published while the provider stays in mock mode.
   */
  lemma LatePollOverwritesMockView(e: Engine, ticket: string, payloads: Payloads, now: Timestamp)
    requires e.mode.MockMode? && e.token == Some(ticket) && payloads.reading.Some?
    ensures var r := CompletePoll(e, ticket, Fetched(payloads), now);
      r.mode.MockMode? && r.view.status == Live && r.mock == e.mock
  {
  }

  /**
   * The race above is reachable from a mount: two polls start with the
   * token, the first fails and the second then succeeds.  The next
   * simulated tick republishes the simulated snapshot.
   */
  lemma RaceAfterMount(raw: string, payloads: Payloads, now: Timestamp,
                       steps: seq<MockTelemetry.Step>)
    requires raw != "" && payloads.reading.Some?
    requires |steps| == |MockTelemetry.Create(now).state.devices|
    requires forall i :: 0 <= i < |steps| ==> MockTelemetry.StepInRange(steps[i])
    ensures var (e0, t0) := Mount(raw, now);
      var e1 := BeginPoll(e0).0;
      var e2 := CompletePoll(e1, raw, Failed(payloads.reading.value, None), now);
      var e3 := CompletePoll(e2, raw, Fetched(payloads), now);
      && t0 == Some(raw) && BeginPoll(e0).1 == Some(raw)
      && e2.mode.MockMode? && e2.view.status == MockFeed
      && e3.mode.MockMode? && e3.view.status == Live
      && MockTimerFires(e3, now, steps).view.status == MockFeed
  {
    var (e0, t0) := Mount(raw, now);
    assert e0.mock.None?;
    var e2 := CompletePoll(BeginPoll(e0).0, raw, Failed(payloads.reading.value, None), now);
    assert e2.mock == Some(MockTelemetry.Create(now));
  }

  // ---------------------------------------------------------------------
  // Token changes
  // ---------------------------------------------------------------------

  /**
   * A changed token forgets the previous reading and every dismissed id.
   * Without a token the provider serves the simulated source; with one it
   * is live, with the empty view loading, and a poll for the new token
   * has started.
   */
  lemma TokenChangeResets(e: Engine, raw: string, now: Timestamp)
    requires TokenOf(raw) != e.token
    ensures var (r, ticket) := ChangeToken(e, raw, now);
      && r.token == TokenOf(raw) && r.previous.None? && r.dismissed == {}
      && (raw == "" ==> r.mode.MockMode? && ticket.None?
                        && (e.mode.LiveMode? ==> r.view.status == MockFeed))
      && (raw != "" ==> r.mode.LiveMode? && ticket == Some(raw)
                        && r.view == InitialView().(status := Loading)
                        && r.mock == e.mock)
  {
  }

  // ---------------------------------------------------------------------
  // Commands
  // ---------------------------------------------------------------------

  /** Live data carries a single, already selected device, so a live selection changes nothing. */
  lemma LiveSelectionIsNoop(e: Engine, id: string, now: Timestamp)
    requires EngineValid(e) && e.mode.LiveMode?
    ensures SetActiveDevice(e, id, now) == e
  {
    var s := e.view.data;
    if id != "" && FindDevice(s.devices, id).Some? {
      assert s.activeDeviceId == Some(id);
    }
  }

  /** In mock mode a selection goes to the simulated source and republishes only when it changed. */
  lemma MockSelectionDelegates(e: Engine, id: string, now: Timestamp)
    requires e.mode.MockMode? && e.mock.Some? && id != ""
    ensures var r := SetActiveDevice(e, id, now);
      var (svc, emitted) := MockTelemetry.SetActiveDevice(e.mock.value, id, now);
      && r.mock == Some(svc)
      && (emitted ==> r.view == MockView(svc.state))
      && (!emitted ==> r == e)
  {
    var (svc, emitted) := MockTelemetry.SetActiveDevice(e.mock.value, id, now);
    if !emitted {
      MockProperties.SetActiveDeviceIgnores(e.mock.value, id, now);
    }
  }

  // ---------------------------------------------------------------------
  // The invariant
  // ---------------------------------------------------------------------

  /**
   * Switching to the simulated source makes the invariant hold whatever the
   * token and the live view: it needs only an undismissed banner and a
   * well-formed simulated source.
   */
  lemma ActivateMockKeepsValid(e: Engine, now: Timestamp)
    requires e.view.banner.None? || e.view.banner.value.id !in e.dismissed
    requires e.mode.MockMode? ==> e.mock.Some?
    requires e.mock.Some? ==> MockProperties.MockValid(e.mock.value)
    ensures EngineValid(ActivateMock(e, now))
  {
    if e.mode.LiveMode? && e.mock.None? {
      MockProperties.CreateIsValid(now);
    }
  }

  /** Every mount starts valid. */
  lemma MountIsValid(raw: string, now: Timestamp)
    ensures EngineValid(Mount(raw, now).0)
  {
    if raw == "" {
      var e := Initial().(token := None, previous := None, dismissed := {});
      ActivateMockKeepsValid(e, now);
    }
  }

  /** A completed poll keeps the invariant. */
  lemma CompletePollKeepsValid(e: Engine, ticket: string, outcome: PollOutcome, now: Timestamp)
    requires EngineValid(e)
    ensures EngineValid(CompletePoll(e, ticket, outcome, now))
  {
    if e.token == Some(ticket) {
      match outcome
      case Fetched(payloads) =>
        LiveProperties.ReadingKeepsBannerUndismissed(e.view, e.previous, e.dismissed, payloads, now);
        if payloads.reading.Some? {
          LiveProperties.ReadingPublishesOneDevice(e.view, e.previous, e.dismissed, payloads, now);
        }
      case Failed(reading, message) =>
        var flagged := e.(view := e.view.(status := Errored, error := Some(OrElse(message, UNREACHABLE))),
                          previous := Some(Remembered(reading, now)));
        ActivateMockKeepsValid(flagged, now);
    }
  }

  /** A simulated tick keeps the invariant. */
  lemma MockTickKeepsValid(e: Engine, now: Timestamp, steps: seq<MockTelemetry.Step>)
    requires EngineValid(e) && StepsFit(e, steps)
    ensures EngineValid(MockTick(e, now, steps))
  {
    if e.mock.Some? {
      MockProperties.TickPreservesValid(e.mock.value, now, steps);
    }
  }

  /** A token change keeps the invariant. */
  lemma ChangeTokenKeepsValid(e: Engine, raw: string, now: Timestamp)
    requires EngineValid(e)
    ensures EngineValid(ChangeToken(e, raw, now).0)
  {
    if TokenOf(raw) != e.token && raw == "" {
      var e1 := e.(token := None, previous := None, dismissed := {});
      ActivateMockKeepsValid(e1, now);
    }
  }

  /** Every admissible event keeps the invariant. */
  lemma HandleKeepsValid(e: Engine, ev: Event, now: Timestamp)
    requires EngineValid(e) && Admissible(e, ev)
    ensures EngineValid(Handle(e, ev, now))
  {
    match ev
    case PollTimer => BeginPollKeepsValid(e);
    case Completed(ticket, outcome) => CompletePollKeepsValid(e, ticket, outcome, now);
    case RefreshPressed(steps) => MockTickKeepsValid(e, now, steps);
    case MockTimer(steps) => MockTickKeepsValid(e, now, steps);
    case DeviceSelected(id) => SelectionKeepsValid(e, id, now);
    case BannerDismissed(id) => DismissBannerKeepsValid(e, id);
    case TokenChanged(raw) => ChangeTokenKeepsValid(e, raw, now);
  }

  /** Starting a poll keeps the invariant. */
  lemma BeginPollKeepsValid(e: Engine)
    requires EngineValid(e)
    ensures EngineValid(BeginPoll(e).0)
  {
  }

  /** A device selection keeps the invariant. */
  lemma SelectionKeepsValid(e: Engine, id: string, now: Timestamp)
    requires EngineValid(e)
    ensures EngineValid(SetActiveDevice(e, id, now))
  {
    if e.mode.LiveMode? {
      LiveSelectionIsNoop(e, id, now);
    } else if id != "" {
      MockProperties.SetActiveDevicePreservesValid(e.mock.value, id, now);
    }
  }

  /** Dismissing a banner keeps the invariant. */
  lemma DismissBannerKeepsValid(e: Engine, id: Option<BannerId>)
    requires EngineValid(e)
    ensures EngineValid(DismissBanner(e, id))
  {
  }

  /** Every admissible run keeps the invariant. */
  lemma {:induction false} RunKeepsValid(e: Engine, events: seq<(Event, Timestamp)>)
    requires EngineValid(e) && RunAdmissible(e, events)
    ensures EngineValid(Run(e, events))
    decreases |events|
  {
    if |events| > 0 {
      HandleKeepsValid(e, events[0].0, events[0].1);
      RunKeepsValid(Handle(e, events[0].0, events[0].1), events[1..]);
    }
  }

  /** Only a token change forgets dismissed ids. */
  lemma HandleKeepsDismissed(e: Engine, ev: Event, now: Timestamp)
    requires Admissible(e, ev) && !ev.TokenChanged?
    ensures e.dismissed <= Handle(e, ev, now).dismissed
  {
  }

  /**
   * Dismissal is permanent until the token changes: over a run without a
   * token change every id dismissed at the start stays dismissed, and no
   * banner with such an id is ever shown again.
   */
  lemma {:induction false} DismissedBannerStaysDown(e: Engine, events: seq<(Event, Timestamp)>, id: BannerId)
    requires EngineValid(e) && RunAdmissible(e, events)
    requires forall i :: 0 <= i < |events| ==> !events[i].0.TokenChanged?
    requires id in e.dismissed
    ensures var r := Run(e, events);
      id in r.dismissed && (r.view.banner.None? || r.view.banner.value.id != id)
    decreases |events|
  {
    if |events| == 0 {
    } else {
      var next := Handle(e, events[0].0, events[0].1);
      HandleKeepsDismissed(e, events[0].0, events[0].1);
      HandleKeepsValid(e, events[0].0, events[0].1);
      assert forall i :: 0 <= i < |events[1..]| ==> !events[1..][i].0.TokenChanged? by {
        forall i | 0 <= i < |events[1..]| ensures !events[1..][i].0.TokenChanged? {
          assert events[1..][i] == events[i + 1];
        }
      }
      DismissedBannerStaysDown(next, events[1..], id);
    }
  }
}
